=== FILE: README.md ===
# hypergro property-listing backend, modelled in Dafny

This project models the core of a property-listing web service written in Go. The service
keeps listings, users, favorites and recommendations in MongoDB, with a Redis read-through
cache in front of it. The model covers:

- **Cache** (`cache.dfy`): the cache helpers. This is the key-value store with its expiry
  classes, key prefixes, get / set / delete / delete-by-pattern, and the three invalidation
  helpers.
- **PropertyService** (`properties.dfy`): the property data layer. Reads go through the
  cache, there are list queries with filters, and create / update / delete carry an
  ownership check and invalidate the cache.
- **UserService** (`users.dfy`): the user data layer. This is signup and lookup, the two
  generations of favorites operations, recommendations, and the received-recommendations
  join.
- **ListFilters** (`list_filters.dfy`): the listing handler's translation of query
  parameters into a filter.
- **CsvImport** (`csv_import.dfy`): the CSV upload handler. This is the header map, the
  required columns, per-row validation with its exact messages, the optional columns, and
  the response.
- **BulkImport** (`bulk_import.dfy`): the stand-alone bulk importer. This covers column
  coercion, the documents it builds, and batching into groups of 1000 with a fatal stop on
  error.
- **Text** (`text.dfy`): the pieces of Go's `strings` and `strconv` that these rely on:
  TrimSpace, ToLower as far as it yields ASCII letters, Split/Join on one character, ParseInt/Atoi/FormatInt. It also
  has the ObjectID hex parser, which accepts either case and prints lower case.
- **Models** (`models.dfy`) holds the entities; **Wrappers** (`wrappers.dfy`) holds
  `Option` and `Result`.

External calls are modelled explicitly and never performed:

- Every call to the cache or the database may fail. An operation takes
  `Outages(cache, store)`: the sets of the indices of its own cache and store calls that
  fail.
- Store failures are returned as errors. Cache failures are only logged, as in the source.
- Fresh object ids, the current time and the encoded filter text are parameters.
- A `Reply(state, result)` carries the new cache and store together with what the caller
  sees.

## Model

| member | source | states |
|---|---|---|
| Cache.GetFromCache | database/db.cache.go:22-34 | a hit exactly when the GET succeeds, the key is present and its bytes decode to the requested shape; a decode error exactly when present bytes do not decode; an absent key is indistinguishable from an unreachable cache |
| Cache.SetInCache | database/db.cache.go:36-43 | fails exactly when the SET fails; on success the key holds the encoded value with the given expiry and every other key is unchanged |
| Cache.SetThenGet | database/db.cache.go:22-43 | reading back a key just written, with the cache reachable, returns the written value |
| Cache.DecodeEncode | database/db.cache.go:28-37 | decoding what was encoded, into the shape it was encoded from, gives the value back |
| Cache.DeleteFromCache | database/db.cache.go:45-47 | on success exactly the one key is removed; on failure nothing changes; surviving entries are untouched |
| Cache.Matching | database/db.cache.go:49-53 | the KEYS glob `prefix*` selects exactly the stored keys with that prefix |
| Cache.DeleteByPattern | database/db.cache.go:49-60 | fails exactly when KEYS fails or DEL fails with something to delete; on success exactly the keys with the prefix are gone and all others keep their values; on failure nothing changes |
| Cache.SweepWithoutMatchIsNoOp | database/db.cache.go:55-59 | with no matching key the DEL is skipped, so the sweep succeeds and changes nothing even when DEL would fail |
| Cache.PropertyKeyNotSwept | database/db.cache.go:16-17 | a `property:` key never has the `properties:` prefix, so the list sweep cannot remove it |
| Cache.ClearPropertyCache | database/db.cache.go:62-74 | removes only the property's key and `properties:` keys; with its DEL reachable the property key is gone; with KEYS and DEL reachable no list key survives; with no outage exactly those keys are removed |
| Cache.ClearUserFavoritesCache | database/db.cache.go:76-82 | only the `user:favorites:<id>` key may go, and it goes when its DEL succeeds |
| Cache.ClearUserCache | database/db.cache.go:84-90 | only the `user:<id>` key may go, and it goes when its DEL succeeds |
| Cache.UserKeyCollidesWithFavoritesKey | database/db.cache.go:18-19 | the user key of `favorites:<id>` equals the favorites key of `<id>`, so the two clear helpers coincide on those inputs |
| Cache.ExpiryClassesOrdered | database/db.cache.go:11-14 | short (5 min) < medium (1 h) < long (24 h) |
| PropertyService.Query | database/db.property.go:82-95 | Find with a filter returns exactly the stored documents that satisfy every filter entry |
| PropertyService.OwnedBy | database/db.property.go:135-145 | Find with `{createdBy: owner}` returns exactly the stored documents of that owner |
| PropertyService.ReadProperty | database/db.property.go:16-54 | a read never changes the stored documents; a failed read changes nothing; the cache is either unchanged or holds the document returned under the read key with the medium expiry |
| PropertyService.GetPropertyById | database/db.property.go:16-54 | a reachable cache entry that decodes is returned as is, before the id is checked; otherwise an invalid id is rejected, and a valid id returns the stored document, which is then cached under the key as given when the SET succeeds; a missing document or a store failure is an error that changes nothing |
| PropertyService.HitIgnoresStore | database/db.property.go:18-27 | on a cache hit the reply does not depend on the database at all |
| PropertyService.GetAllProperties | database/db.property.go:56-107 | without a cacheable filter text the result is exactly the filter's query, or the store error when the Find fails; with one, a cached list is returned as is, and on a miss the Find error is returned with nothing changed, or the query result is returned and cached under `properties:<text>` with the short expiry; the store is never changed |
| PropertyService.GetAllPropertiesByUser | database/db.property.go:109-154 | the cache is read before the user id is checked, and a hit is returned as is; the cache changes only at `properties:user:<id>`; on a miss a bad id is rejected, a failing Find is an error with nothing changed, and otherwise the result is exactly the user's documents, cached under that key with the short expiry when the SET succeeds |
| PropertyService.UserListKeySwept | database/db.property.go:113 | the per-user list key lies under the `properties:` prefix, so every list sweep removes it |
| PropertyService.CreateAProperty | database/db.property.go:156-177 | fails exactly when the insert fails or the id is taken, changing nothing; on success the document is stored under its id (the fresh one when its own is zero) with the new creation time; only `properties:` keys may leave the cache, and with the cache reachable none survives |
| PropertyService.CreatePreservesWellFormed | database/db.property.go:162-167 | every stored document stays under its own id after a create |
| PropertyService.ApplyPatchLaws | database/db.property.go:204-209 | a `$set` patch is idempotent and never changes the id; the owner and the creation time change exactly when the patch names them, to the value named; the empty patch is the identity |
| PropertyService.UpdateAProperty | database/db.property.go:179-225 | a bad user id is rejected; for a valid one the update succeeds exactly when the caller owns the property and the count, the write and the re-read all succeed; a failing count or write is a store error with nothing changed, and a property not owned by the caller is denied with nothing changed; on success the document is the patched one and exactly ClearPropertyCache of the printed id has run; an error leaves the cache alone and changes the store only when the re-read after the write failed |
| PropertyService.UpdateErrorAfterWrite | database/db.property.go:209-222 | when the re-read after a successful write fails the caller sees an error although the document was patched, and nothing is invalidated |
| PropertyService.OwnerChangeLocksOut | database/db.property.go:191-209 | an update that sets `createdBy` to someone else hands the property over: the previous owner's next update and delete are refused as if the property did not exist |
| PropertyService.DeleteWithKey | database/db.property.go:243-260 | the delete succeeds exactly when the store is reachable and the caller owns the property; on success the document is gone and the cache is cleared under the key given |
| PropertyService.DeleteAProperty | database/db.property.go:227-261 | the property id is checked before the user id; for valid ids the delete succeeds exactly when the store is reachable and the caller owns the property, a store failure and a non-owner each giving their own error with nothing changed; on success exactly that document is removed and the cache is cleared under the id text as given |
| PropertyService.NonOwnerIndistinguishableFromMissing | database/db.property.go:191-255 | an update or delete of someone else's property gives the same error as one of a missing property and changes nothing |
| PropertyService.StaleAfterUpdate | database/db.property.go:18 | as written: after a read through a non-canonical spelling of an id and a successful update, the next read through that spelling returns the document as it was before the update |
| PropertyService.SampleSpellingParses | database/db.property.go:35 | the upper-case spelling `6835C855BDCC74CFB350E6C4` is accepted as the id `6835c855bdcc74cfb350e6c4` |
| PropertyService.SampleSpellingNotCanonical | database/db.property.go:222 | that spelling differs from the printed id, so StaleAfterUpdate applies to it |
| PropertyService.SpellingOf | database/db.property.go:35 | any 24-digit hex text that lower-cases to an id parses to that id |
| PropertyService.CanonicalPropertyKey | database/db.property.go:18 | for a valid id the key is built from the printed id, whatever the case of the request |
| PropertyService.GetPropertyByIdCanonical | database/db.property.go:16-54 | corrected read: the same read-through behaviour with the cache keyed on the printed id |
| PropertyService.DeleteAPropertyCanonical | database/db.property.go:227-261 | corrected delete: the same id checks, the same success condition (store reachable and the caller the owner) and the same errors, removing exactly that document and clearing the cache under the printed id |
| PropertyService.FreshAfterUpdateCanonical | database/db.property.go:222 | with canonical keys, after a successful update every spelling of the id reads the updated document |
| PropertyService.FreshAfterDeleteCanonical | database/db.property.go:258 | with canonical keys, after a successful delete no spelling of the id is answered from the cache and the read fails |
| UserService.UserWithEmail | database/db.user.go:21-22 | the user found by email is stored and has that email |
| UserService.FirstOrCreateUser | database/db.user.go:14-42 | an existing email returns that user's id and writes nothing; otherwise exactly one new user with the given fields is added under the fresh id, and an id already taken is a duplicate-key error; a failed FindOne, or a failed InsertOne for a new email, returns the store error; emails stay unique; errors change nothing |
| UserService.SignupTwice | database/db.user.go:14-42 | signing up twice with one email returns the same id and creates no second user |
| UserService.GetPasswordByMail | database/db.user.go:44-61 | a failed FindOne returns the store error; with the store reachable it succeeds exactly when a user has the email, and returns that user's password and id; otherwise user-not-found |
| UserService.GetUserById | database/db.user.go:63-86 | an invalid id is rejected; a failed FindOne returns the store error; with the store reachable the stored user is returned or user-not-found |
| UserService.AddToFavorites | database/db.user.go:88-130 | both ids are checked in order; a failed FindOne returns the store error; a property already held succeeds with no write; otherwise a failed `$addToSet` returns the store error and a successful one succeeds; on success only that user changes, gaining the property; a missing user is not an error |
| UserService.AddToFavoritesIdempotent | database/db.user.go:106-129 | adding the same favorite twice leaves the database as adding it once |
| UserService.RemoveFromFavorites | database/db.user.go:132-158 | both ids are checked in order; it succeeds exactly when the `$pull` does, and a failed `$pull` returns the store error and changes nothing; on success only that user changes, losing the property; a missing user is not an error |
| UserService.AddThenRemoveFavorites | database/db.user.go:88-158 | adding a favorite the user did not hold and then removing it, with no outage, gives back the database as it was |
| UserService.AddFavoriteProperty | database/db.user.go:201-255 | checks user id, property id, property existence, then adds; a failure of the property count, of the `$addToSet`, or of the user count after an update that changed nothing returns the store error; a missing user and an existing favorite are told apart; it succeeds exactly when both counts and the update go through for a stored user lacking the property, and then only that user changes, gaining it |
| UserService.RemoveFavoriteProperty | database/db.user.go:257-301 | never looks the property up; a failed `$pull`, or a failed user count after a `$pull` that changed nothing, returns the store error; a missing user and a non-favorite are told apart; it succeeds exactly when the `$pull` goes through for a user holding the property, and then only that user changes, losing it |
| UserService.RemoveIgnoresProperties | database/db.user.go:257-301 | the reply does not depend on the properties collection |
| UserService.GetUserFavorites | database/db.user.go:160-199 | an invalid id, a failed user FindOne, a missing user and an empty list are handled first; for a user with favorites a failed properties Find returns the store error; otherwise the result is exactly the stored properties whose ids are the user's favorites |
| UserService.FavoritesAfterAddAndRemove | database/db.user.go:160-301 | after a successful add the property is listed among the favorites; after a successful remove it is not |
| UserService.RecommendProperty | database/db.user.go:305-367 | the three ids are checked in order, then the property and the recipient must exist; a failure of either count or of the `$push` returns the store error and changes nothing; on success every call went through and only the recipient changes, with the recommendation appended |
| UserService.Join | database/db.user.go:438-452 | the listing never has more entries than the stored recommendations |
| UserService.JoinAppend | database/db.user.go:438-452 | the listing distributes over concatenation of the stored list |
| UserService.JoinMembership | database/db.user.go:438-452 | an entry is listed exactly when some stored recommendation resolves to it |
| UserService.JoinFrame | database/db.user.go:438-452 | only names and emails of users affect the listing |
| UserService.GetReceivedRecommendations | database/db.user.go:369-455 | an invalid id, a failed user FindOne, a missing user and an empty list are handled first; for a non-empty list a failed properties or recommenders Find returns the store error; otherwise the user gets exactly the join of their stored recommendations (see JoinMembership for what it lists), never longer than the stored list |
| UserService.RecommendThenList | database/db.user.go:305-455 | after a successful recommendation, the recipient's listing is the old listing plus the new entry when the recommender exists, and the old listing otherwise |
| ListFilters.AddText | handlers/property/list.go:19-29 | a text parameter adds an equality entry exactly when it is non-empty and touches no other field |
| ListFilters.AddInt | handlers/property/list.go:49-61 | an integer parameter adds an equality entry exactly when it parses and touches no other field |
| ListFilters.AddPrice | handlers/property/list.go:31-47 | the price entry exists exactly when a bound parses and is the range of the bounds that parse |
| ListFilters.EntriesKept | handlers/property/list.go:16-65 | a step that touches one field keeps every other field's entry |
| ListFilters.BuildFilters | handlers/property/list.go:16-65 | every field's entry is what its parameter asks for |
| ListFilters.NoParametersNoFilter | handlers/property/list.go:16-65 | with no query parameters the filter is empty |
| ListFilters.FilterMeansQuery | handlers/property/list.go:16-65 | a property matches the built filter exactly when it satisfies every parameter of the query |
| ListFilters.QueryImpliesFilter | handlers/property/list.go:16-65 | a property that satisfies the query matches the filter |
| ListFilters.FilterImpliesQuery | handlers/property/list.go:16-65 | a property that matches the filter satisfies the query |
| ListFilters.FilterMeansQueryEverywhere | handlers/property/list.go:16-65 | the equivalence holds for every property at once |
| ListFilters.EmptyQueryListsAll | handlers/property/list.go:16-67 | an empty query matches every property |
| ListFilters.ListProperties | handlers/property/list.go:13-81 | a cached list under `properties:<text>` is returned as is; otherwise a failing Find is an error with nothing changed, and with the store reachable the listing is exactly the stored properties satisfying the query; the store is never changed |
| CsvImport.MapStrings | handlers/property/import_csv.go:62-64 | every header is normalised in place |
| CsvImport.NormalizeHeader | handlers/property/import_csv.go:63 | a normalised header has no white space at either end, no upper-case ASCII letter, and is no longer than the header |
| CsvImport.LastIndex | handlers/property/import_csv.go:61-64 | a name is in the map exactly when some header normalises to it, and maps to the last such column |
| CsvImport.HeaderLookup | handlers/property/import_csv.go:61-64 | the header map knows a name exactly when some header trims and lower-cases to it, at the last such index |
| CsvImport.HeaderMap | handlers/property/import_csv.go:61-64 | every header is in the map under its normalised name; each entry points to a column with that normalised name, and no later column has it |
| CsvImport.FirstMissing | handlers/property/import_csv.go:66-74 | no required field is reported exactly when all are present; a reported field is required and absent |
| CsvImport.FirstMissingIsFirst | handlers/property/import_csv.go:66-74 | the reported field is the first missing one in the order title, type, price, state, city |
| CsvImport.TrimAll | handlers/property/import_csv.go:158-160 | every element is trimmed, in place |
| CsvImport.ListCell | handlers/property/import_csv.go:153-162 | an absent or blank cell gives no pieces; otherwise piece i is the trimmed i-th `|`-separated part of the trimmed cell, one piece per part |
| CsvImport.OptionalInt | handlers/property/import_csv.go:132-151 | a present cell that parses as a 64-bit integer gives that integer; an absent, blank or unparseable cell gives 0 |
| CsvImport.VerifiedCell | handlers/property/import_csv.go:202-207 | true exactly when the cell is present and, trimmed and lower-cased, is `true`, `yes` or `1` |
| CsvImport.ParseRow | handlers/property/import_csv.go:79-211 | a row is accepted exactly when its title, type, state and city cells are not blank and its price cell parses to a positive number; each of the five checks, in order, gives its exact message; an accepted row has the given id, owner and time, and a positive price when a price cell exists |
| CsvImport.ParsedFields | handlers/property/import_csv.go:99-211 | every field of an accepted row: text columns trimmed or empty when absent, the price as parsed, the optional numbers as OptionalInt reads them, the two lists as ListCell splits them, the verified flag as VerifiedCell reads it |
| CsvImport.EmptyRowAccepted | handlers/property/import_csv.go:90-130 | a row shorter than every column skips all checks and yields an empty property |
| CsvImport.ImportRow | handlers/property/import_csv.go:79-219 | a row that fails parsing reports the parser's message and changes nothing; a parsed row is created through CreateAProperty, and its failure is reported with the row number and the store's error; each row yields exactly one outcome, and a created row belongs to the uploader |
| CsvImport.ImportRows | handlers/property/import_csv.go:79-220 | created plus errors equals the rows; nothing changes unless something is created; everything created belongs to the uploader |
| CsvImport.RunRowsOutcomes | handlers/property/import_csv.go:79-220 | for any per-row step with a single outcome owned by the uploader, the loop yields one entry per data row, leaves the world alone unless something is created, and everything it creates belongs to the uploader |
| CsvImport.AllValidRowsImported | handlers/property/import_csv.go:79-220 | with the store up, every row well-formed and every fresh id new and distinct, every row is created, in order, exactly as parsed, and no error is reported |
| CsvImport.ImportRecords | handlers/property/import_csv.go:54-237 | fewer than two records and a missing required column are rejected with their messages; otherwise the rows are imported, and the reply is a success exactly when no row failed or some row was created, carrying the loop's created list and errors; an all-failed import is rejected with one detail per row and changes nothing |
| CsvImport.AllValidRecordsImported | handlers/property/import_csv.go:54-237 | a file with the required headers and only well-formed rows, with the store up and fresh ids, is a success with every row created in order and no errors |
| CsvImport.ImportPropertiesFromCsv | handlers/property/import_csv.go:19-239 | checks the user id, the upload, the `.csv` suffix, opening and parsing in that order, each with its own response, and then imports the records as the uploader |
| BulkImport.Coerce | cmd/import.go:65-102 | numeric columns become the 64-bit integer the cell parses to, 0 when unparseable; list columns split on `|` and rejoin to the cell; isVerified is a boolean, true exactly for "True"; other columns stay text |
| BulkImport.NumericColumnRoundTrip | cmd/import.go:66-79 | a numeric column holding a printed 64-bit integer gets exactly that integer |
| BulkImport.LowerCaseTrueIsFalse | cmd/import.go:87-89 | "true" in lower case gives isVerified false |
| BulkImport.Columns | cmd/import.go:58-103 | skipped columns are dropped, every other column is present, and a column's value is that of its last occurrence |
| BulkImport.ToDoc | cmd/import.go:55-107 | every document has the fixed creator, a creation time and an `_id`, never a propId or id key, and no keys beyond the headers |
| BulkImport.ToDocId | cmd/import.go:56 | without an `_id` column the document's `_id` is the fresh id |
| BulkImport.ToDocCell | cmd/import.go:58-103 | a column's last occurrence, coerced, is the document's value for it |
| BulkImport.WellFormedPrefix | cmd/import.go:46-53 | counts the leading records with as many fields as the header; the next one, if any, does not |
| BulkImport.DocsAt | cmd/import.go:46-109 | one document per record, in order, with the record's fresh id |
| BulkImport.Loop | cmd/import.go:46-125 | every InsertMany batch is non-empty and at most 1000 long, every insert the loop made succeeded, and the loop completes only when every record has the header's field count; LoopIsBatching gives the batches exactly |
| BulkImport.LoopIsBatching | cmd/import.go:46-125 | the import loop batches exactly the documents of the well-formed prefix and reaches the end exactly when every record is well formed |
| BulkImport.BatchingWellBatched | cmd/import.go:109-125 | every batch inserted is non-empty and at most 1000 long |
| BulkImport.BatchingStops | cmd/import.go:111-123 | every insert made succeeded; the run completes exactly when it reaches the end and no insert failed |
| BulkImport.BatchingInOrder | cmd/import.go:109-125 | the inserted documents are a prefix of the input in order, and all of it when the run completes |
| BulkImport.ImportBatches | cmd/import.go:26-128 | batches are well formed and their inserts numbered from 0; a completed import inserted every record's document, in file order |
| BulkImport.Import | cmd/import.go:26-128 | the header is the first record; batches are non-empty and at most 1000 long, inserts numbered from 0 all succeeded, and a completed import had a header and only well-formed records |
| Text.SpaceEnd | handlers/property/import_csv.go:63 | the white space TrimSpace drops at the front: every character from the start index up to the result is white space, and the result is the end of the string or a non-space character |
| Text.SpaceStart | handlers/property/import_csv.go:63 | the white space TrimSpace drops at the back: every character from the result up to the end index is white space, and the result is 0 or follows a non-space character |
| Text.TrimSpace | handlers/property/import_csv.go:63 | the result is the slice of the input between white-space runs and neither starts nor ends with white space |
| Text.TrimSpaceEmpty | handlers/property/import_csv.go:92 | trimming gives the empty string exactly for all-white-space input |
| Text.TrimSpaceIdempotent | handlers/property/import_csv.go:158-160 | trimming twice is trimming once |
| Text.ToLower | handlers/property/import_csv.go:63 | same length, each character lowered as LowerChar lowers it |
| Text.LowerChar | handlers/property/import_csv.go:63 | the result is a lower-case ASCII letter exactly when the input is an ASCII letter, the dotted capital I (U+0130) or the Kelvin sign (U+212A), the two non-ASCII letters whose lower case is ASCII |
| Text.Split | handlers/property/import_csv.go:156 | at least one piece, no piece contains the separator, and joining the pieces gives the input back |
| Text.SplitCount | cmd/import.go:92 | the number of pieces is one more than the number of separators |
| Text.ParseInt64 | handlers/property/list.go:32 | accepted text is an optional sign followed by one or more digits, and the value is those digits' value, negated after `-`, within the 64-bit range; every such text whose value fits is accepted |
| Text.Atoi | handlers/property/list.go:50-57 | on a 64-bit platform: an accepted value is in the 64-bit range, accepted text is an optional sign then digits with their value, and every digit string whose value fits is accepted |
| Text.NatToString | handlers/property/import_csv.go:93 | a non-empty run of decimal digits with no leading zero; 0 prints as `0` |
| Text.DigitsOfNatToString | handlers/property/import_csv.go:93 | the printed digits have the number's value |
| Text.ParseFormatRoundTrip | cmd/import.go:68 | parsing a printed 64-bit integer gives it back |
| Text.ParseObjectId | handlers/property/import_csv.go:23 | accepts exactly 24 hex digits of either case, yielding the lower-case spelling |
| Text.ParseCanonicalId | database/db.user.go:33 | a printed id parses back to itself |

## Left out

- Network, timeouts and connection set-up (`database/db.go`), the router, the auth handlers and middleware, JWT handling and password hashing are not part of this model. The thin HTTP handlers that only forward to the data layer are represented by the data-layer operations they call.
- `rating` and `availableFrom` parsing, which go through floating point and time parsing, are not modelled. Properties carry no rating or availability date, and the bulk importer records them as uninterpreted text (`VFloat`, `VDate`). `time.Now()` is a parameter (`now`) or the marker `VNow`.
- Database result order is not modelled: list reads return sets.
- `bson.Marshal` of a Go map has no fixed key order, so the list-cache key text is a parameter (`encoded`), with `None` standing for a failed marshal.
- Text.ToLower: Go's `strings.ToLower` also lowers non-ASCII letters. The model lowers only those whose lower case is ASCII: U+0130 becomes `i` and U+212A becomes `k`, so a header spelled `TİTLE` is read as `title`, as in the source. Every other non-ASCII character is kept, where Go would map it to another non-ASCII character. Neither spelling equals any of the ASCII names and values the code compares against, so header lookup and the isVerified check come out the same.
- Text.Atoi: equals `ParseInt(s, 10, 64)`, which is what `strconv.Atoi` does on a 64-bit platform. A 32-bit platform is not modelled.
- CsvImport.ParseRow: the `idx < len(record)` guards are modelled as written. `csv.Reader.ReadAll` already rejects records of the wrong length, so those guards never fail in practice. The CSV reader's own quoting and field-count parsing is not modelled: the handler receives either records or a parse-failure reason.
- The favorites and recommendation operations do not invalidate any cache entry, and neither does the bulk importer. The model follows the source in this.
- A nil slice and an empty slice are the same in the model (for example, amenities when the column is absent).
- PropertyService.UpdateAProperty: the request body is modelled as a patch over the document's fields, with `createdBy` and `createdAt` given as the id or time they name. In the source the JSON body is a `map[string]interface{}`, so those two arrive as a string and are stored as a string, which no ownership filter matches; the model therefore states the hand-over to another owner rather than the lock-out of every caller. Keys that are not fields of the document, `_id`, rating, the availability date, and JSON numbers arriving as float64 are not modelled.
- UserService.FirstOrCreateUser: the signup handler (handlers/auth/signup.go:28-32) creates users with nil favorites and received lists, which the driver stores as BSON null because the fields carry no omitempty. MongoDB refuses `$addToSet` and `$push` on a null field, so AddToFavorites, AddFavoriteProperty and RecommendProperty would fail for a user created through signup until something stores an array there. The model stores empty collections for a new user and does not reproduce that failure.
- UserService.FirstOrCreateUser: emails stay unique only for signups that do not overlap. The lookup and the insert are separate calls and there is no unique index on email, so two concurrent signups with one email can both insert; concurrency is not modelled.
- BulkImport.Import: opening the file and reading the header row are not modelled. The file is given as its records, and a fatal error reading the header is not modelled separately from an empty file.
- BulkImport.Loop: a failing InsertMany is modelled as storing none of its batch. The driver's InsertMany is ordered by default, so the documents of that batch ahead of the failing one are already stored when `log.Fatal` ends the run (cmd/import.go:112-114 and 121-123). The model's inserted batches are therefore the batches stored in full, not every document that reached the database.
- Authorization in the handlers is not modelled beyond the ownership filter, in particular how the user id reaches the data layer from the request context. The model takes it as a parameter.

## Findings

| source | as written | input that shows it | evidently intended | confidence | as-written member | corrected member |
|---|---|---|---|---|---|---|
| database/db.property.go:18, 222, 258 | GetPropertyByID and DeleteAProperty key the cache on the id text of the request (`property:` + text), while UpdateAProperty clears `property:` + `Hex()`, the lower-case spelling. ObjectIDFromHex accepts upper-case hex, so one document can be cached under a key that no update clears. | read `6835C855BDCC74CFB350E6C4`, update `6835c855bdcc74cfb350e6c4` as its owner, read `6835C855BDCC74CFB350E6C4` again: the pre-update document is returned | cache keys built from the parsed id, so every spelling of an id shares one entry and every write clears it | high; not executed | PropertyService.StaleAfterUpdate, PropertyService.SampleSpellingParses, PropertyService.SampleSpellingNotCanonical | PropertyService.GetPropertyByIdCanonical, PropertyService.DeleteAPropertyCanonical, PropertyService.FreshAfterUpdateCanonical, PropertyService.FreshAfterDeleteCanonical |

=== FILE: bulk_import.dfy ===
/**
 * The one-off bulk importer (cmd/import.go): every CSV record becomes a loosely typed
 * document keyed by the header names, with per-column coercion, and the documents are
 * inserted in batches of 1000 with a final partial batch. Any reader or insert error
 * ends the run (log.Fatal), dropping the documents not yet inserted.
 */
module BulkImport {
  import opened Wrappers
  import opened Text
  import opened Models

  /** A document field value. Floats and dates are kept as their text: their parsing is not modelled. */
  datatype Value =
    | VId(id: Id)
    | VStr(text: string)
    | VInt(n: int)
    | VBool(b: bool)
    | VList(items: seq<string>)
    | VFloat(text: string)
    | VDate(text: string)
    | VNow

  type Doc = map<string, Value>

  /** Every imported document is owned by this fixed user. */
  const ImporterId: Id := "6835c855bdcc74cfb350e6c4"

  const BatchSize: nat := 1000

  /** Columns whose values are never copied into the document. */
  predicate Skipped(key: string) {
    key == "propId" || key == "id"
  }

  predicate IsInt64Column(key: string) { key == "price" || key == "areaSqFt" }
  predicate IsIntColumn(key: string) { key == "bedrooms" || key == "bathrooms" }
  predicate IsListColumn(key: string) { key == "amenities" || key == "tags" }

  predicate IsTypedColumn(key: string) {
    IsInt64Column(key) || IsIntColumn(key) || IsListColumn(key)
    || key == "rating" || key == "isVerified" || key == "availableFrom"
  }

  /** The value stored for one cell, chosen by the exact (case-sensitive) header name. */
  function Coerce(key: string, v: string): (r: Value)
    ensures IsInt64Column(key) || IsIntColumn(key) ==> r.VInt? && Int64Min <= r.n <= Int64Max
    ensures (IsInt64Column(key) || IsIntColumn(key)) && ParseInt64(v).Some? ==> r == VInt(ParseInt64(v).value)
    ensures (IsInt64Column(key) || IsIntColumn(key)) && ParseInt64(v).None? ==> r == VInt(0)
    ensures IsListColumn(key) ==> r.VList? && Join(r.items, '|') == v && |r.items| == Count(v, '|') + 1
    ensures key == "isVerified" ==> r.VBool? && (r.b <==> v == "True")
    ensures !IsTypedColumn(key) ==> r == VStr(v)
  {
    if IsInt64Column(key) then VInt(ParseInt64(v).GetOr(0))
    else if IsIntColumn(key) then VInt(Atoi(v).GetOr(0))
    else if key == "rating" then VFloat(v)
    else if key == "isVerified" then VBool(v == "True")
    else if IsListColumn(key) then SplitCount(v, '|'); VList(Split(v, '|'))
    else if key == "availableFrom" then VDate(v)
    else VStr(v)
  }

  /** A number written out by FormatInt comes back from a numeric column unchanged. */
  lemma NumericColumnRoundTrip(key: string, n: int)
    requires IsInt64Column(key) || IsIntColumn(key)
    requires Int64Min <= n <= Int64Max
    ensures Coerce(key, FormatInt(n)) == VInt(n)
  {
    ParseFormatRoundTrip(n);
  }

  /** isVerified is case-sensitive: "true" is stored as false. */
  lemma LowerCaseTrueIsFalse()
    ensures Coerce("isVerified", "true") == VBool(false)
  {
  }

  /**
   * The cells of one record under their column names, each converted by `convert`; a
   * later column with the same name wins.
   */
  function Columns(keys: seq<string>, cells: seq<string>, convert: (string, string) -> Value): (m: Doc)
    requires |cells| == |keys|
    ensures forall k :: k in m ==> !Skipped(k) && k in keys
    ensures forall i :: 0 <= i < |keys| && !Skipped(keys[i]) ==> keys[i] in m
    ensures forall i :: (&& 0 <= i < |keys| && !Skipped(keys[i])
                         && (forall j :: i < j < |keys| ==> keys[j] != keys[i])) ==>
      m[keys[i]] == convert(keys[i], cells[i])
  {
    if |keys| == 0 then map[]
    else
      var last := |keys| - 1;
      var m := Columns(keys[..last], cells[..last], convert);
      assert forall i :: 0 <= i < last ==> keys[..last][i] == keys[i] && cells[..last][i] == cells[i];
      assert keys == keys[..last] + [keys[last]];
      if Skipped(keys[last]) then m else m[keys[last] := convert(keys[last], cells[last])]
  }

  /** The document built for one record, given the fresh id it receives. */
  function ToDoc(headers: seq<string>, record: seq<string>, id: Id): (d: Doc)
    requires |record| <= |headers|
    ensures "createdBy" in d && d["createdBy"] == VId(ImporterId)
    ensures "createdAt" in d && d["createdAt"] == VNow
    ensures "propId" !in d && "id" !in d && "_id" in d
    ensures forall k :: k in d ==> k in {"_id", "createdAt", "createdBy"} || k in headers[..|record|]
  {
    (map["_id" := VId(id)] + Columns(headers[..|record|], record, Coerce))["createdAt" := VNow]["createdBy" := VId(ImporterId)]
  }

  /** The document keeps the fresh id unless a column is itself named "_id". */
  lemma ToDocId(headers: seq<string>, record: seq<string>, id: Id)
    requires |record| <= |headers|
    requires "_id" !in headers[..|record|]
    ensures ToDoc(headers, record, id)["_id"] == VId(id)
  {
    var m := Columns(headers[..|record|], record, Coerce);
    assert "_id" !in m;
  }

  /**
   * A cell lands under its header name, coerced, unless the header is skipped, is one of
   * the two stamps written afterwards, or appears again further right.
   */
  lemma ToDocCell(headers: seq<string>, record: seq<string>, id: Id, i: nat)
    requires |record| <= |headers| && i < |record|
    requires !Skipped(headers[i]) && headers[i] != "createdAt" && headers[i] != "createdBy"
    requires forall j :: i < j < |record| ==> headers[j] != headers[i]
    ensures headers[i] in ToDoc(headers, record, id)
    ensures ToDoc(headers, record, id)[headers[i]] == Coerce(headers[i], record[i])
  {
    var keys := headers[..|record|];
    assert keys[i] == headers[i];
    assert forall j :: i < j < |keys| ==> keys[j] != keys[i];
  }

  // ---------------------------------------------------------------------------
  // The record loop and batching

  function Flatten<T>(batches: seq<seq<T>>): seq<T> {
    if |batches| == 0 then [] else batches[0] + Flatten(batches[1..])
  }

  /** How a run ended: the batches inserted, in order, and whether it reached "Import complete!". */
  datatype Run<T> = Run(inserted: seq<seq<T>>, completed: bool)

  /** Every batch is non-empty and at most BatchSize, and all but the last are full. */
  predicate WellBatched<T>(batches: seq<seq<T>>) {
    && (forall i :: 0 <= i < |batches| ==> 0 < |batches[i]| <= BatchSize)
    && (forall i :: 0 <= i < |batches| - 1 ==> |batches[i]| == BatchSize)
  }

  /** The records the reader delivers before the first whose field count differs from the header's. */
  function WellFormedPrefix(headers: seq<string>, records: seq<seq<string>>): (n: nat)
    ensures n <= |records|
    ensures forall i :: 0 <= i < n ==> |records[i]| == |headers|
    ensures n < |records| ==> |records[n]| != |headers|
  {
    if |records| == 0 || |records[0]| != |headers| then 0
    else
      var n := WellFormedPrefix(headers, records[1..]);
      assert forall i :: 1 <= i < n + 1 ==> records[i] == records[1..][i - 1];
      1 + n
  }

  /** The documents of the records, the i-th with the fresh id ids(first + i), independent of batching. */
  function Docs(headers: seq<string>, records: seq<seq<string>>, first: nat, ids: nat -> Id): seq<Doc>
    requires forall i :: 0 <= i < |records| ==> |records[i]| == |headers|
    decreases |records|
  {
    if |records| == 0 then []
    else [ToDoc(headers, records[0], ids(first))] + Docs(headers, records[1..], first + 1, ids)
  }

  /** One document per record, in order, the i-th built from record i with the fresh id ids(first + i). */
  lemma {:induction false} DocsAt(headers: seq<string>, records: seq<seq<string>>, first: nat, ids: nat -> Id)
    requires forall i :: 0 <= i < |records| ==> |records[i]| == |headers|
    ensures |Docs(headers, records, first, ids)| == |records|
    ensures forall i :: 0 <= i < |records| ==> Docs(headers, records, first, ids)[i] == ToDoc(headers, records[i], ids(first + i))
    decreases |records|
  {
    if |records| > 0 {
      DocsAt(headers, records[1..], first + 1, ids);
      assert forall i :: 1 <= i < |records| ==> records[i] == records[1..][i - 1];
    }
  }

  /**
   * The loop from `records` on, with `pending` documents not yet inserted and `batch` the
   * number of InsertMany calls made so far; the calls numbered in `failing` fail.
   */
  function Loop(headers: seq<string>, records: seq<seq<string>>, first: nat, pending: seq<Doc>, batch: nat,
                ids: nat -> Id, failing: set<nat>): (r: Run<Doc>)
    requires |pending| < BatchSize
    ensures forall k :: 0 <= k < |r.inserted| ==> 0 < |r.inserted[k]| <= BatchSize
    ensures forall b :: batch <= b < batch + |r.inserted| ==> b !in failing
    ensures r.completed ==> WellFormedPrefix(headers, records) == |records|
    decreases |records|
  {
    if |records| == 0 then
      if |pending| == 0 then Run([], true)
      else if batch in failing then Run([], false)
      else Run([pending], true)
    else if |records[0]| != |headers| then Run([], false)
    else
      var p := pending + [ToDoc(headers, records[0], ids(first))];
      if |p| >= BatchSize then
        if batch in failing then Run([], false)
        else
          var rest := Loop(headers, records[1..], first + 1, [], batch + 1, ids, failing);
          assert forall k :: 1 <= k < 1 + |rest.inserted| ==> ([p] + rest.inserted)[k] == rest.inserted[k - 1];
          Run([p] + rest.inserted, rest.completed)
      else Loop(headers, records[1..], first + 1, p, batch, ids, failing)
  }

  /**
   * Import(): the first record is the header; an empty file ends the run before anything
   * is inserted.
   */
  function Import(file: seq<seq<string>>, ids: nat -> Id, failing: set<nat>): (r: Run<Doc>)
    ensures forall k :: 0 <= k < |r.inserted| ==> 0 < |r.inserted[k]| <= BatchSize
    ensures forall b :: 0 <= b < |r.inserted| ==> b !in failing
    ensures r.completed ==> |file| > 0 && WellFormedPrefix(file[0], file[1..]) == |file| - 1
  {
    if |file| == 0 then Run([], false)
    else Loop(file[0], file[1..], 0, [], 0, ids, failing)
  }

  // ---------------------------------------------------------------------------
  // Batching on its own

  /**
   * The flushes of the loop over `items` alone: a full batch is inserted as soon as it
   * fills, and what is left is inserted at the end only when the reader reached the end
   * of the file (`reachesEnd`).
   */
  function Batching<T>(pending: seq<T>, items: seq<T>, batch: nat, failing: set<nat>, reachesEnd: bool): Run<T>
    requires |pending| < BatchSize
    decreases |items|
  {
    if |items| == 0 then
      if !reachesEnd then Run([], false)
      else if |pending| == 0 then Run([], true)
      else if batch in failing then Run([], false)
      else Run([pending], true)
    else
      var p := pending + [items[0]];
      if |p| >= BatchSize then
        if batch in failing then Run([], false)
        else
          var rest := Batching([], items[1..], batch + 1, failing, reachesEnd);
          Run([p] + rest.inserted, rest.completed)
      else Batching(p, items[1..], batch, failing, reachesEnd)
  }

  /** The record loop is the batching of the documents of the well-formed records before the first bad one. */
  lemma {:induction false} LoopIsBatching(headers: seq<string>, records: seq<seq<string>>, first: nat, pending: seq<Doc>,
                                          batch: nat, ids: nat -> Id, failing: set<nat>)
    requires |pending| < BatchSize
    ensures var n := WellFormedPrefix(headers, records);
      Loop(headers, records, first, pending, batch, ids, failing)
        == Batching(pending, Docs(headers, records[..n], first, ids), batch, failing, n == |records|)
    decreases |records|
  {
    var n := WellFormedPrefix(headers, records);
    if |records| > 0 && |records[0]| == |headers| {
      var d := ToDoc(headers, records[0], ids(first));
      var p := pending + [d];
      var m := WellFormedPrefix(headers, records[1..]);
      assert n == m + 1;
      assert records[..n][1..] == records[1..][..m];
      var docs := Docs(headers, records[..n], first, ids);
      assert docs[0] == d && docs[1..] == Docs(headers, records[1..][..m], first + 1, ids);
      if |p| >= BatchSize {
        LoopIsBatching(headers, records[1..], first + 1, [], batch + 1, ids, failing);
      } else {
        LoopIsBatching(headers, records[1..], first + 1, p, batch, ids, failing);
      }
    }
  }

  /** Every in-loop flush is a full batch; only the final flush may be smaller, and it is never empty. */
  lemma {:induction false} BatchingWellBatched<T>(pending: seq<T>, items: seq<T>, batch: nat, failing: set<nat>, reachesEnd: bool)
    requires |pending| < BatchSize
    ensures WellBatched(Batching(pending, items, batch, failing, reachesEnd).inserted)
    decreases |items|
  {
    if |items| > 0 {
      var p := pending + [items[0]];
      if |p| >= BatchSize {
        BatchingWellBatched([], items[1..], batch + 1, failing, reachesEnd);
        var rest := Batching([], items[1..], batch + 1, failing, reachesEnd);
        var r := Batching(pending, items, batch, failing, reachesEnd);
        if batch !in failing {
          assert r.inserted == [p] + rest.inserted;
          assert forall i :: 1 <= i < |r.inserted| ==> r.inserted[i] == rest.inserted[i - 1];
        }
      } else {
        BatchingWellBatched(p, items[1..], batch, failing, reachesEnd);
      }
    }
  }

  /**
   * The InsertMany calls are numbered from `batch` up and all of them succeed; a run
   * completes only when the reader reached the end, and otherwise stops there or at the
   * failing call just after the last one that succeeded.
   */
  lemma {:induction false} BatchingStops<T>(pending: seq<T>, items: seq<T>, batch: nat, failing: set<nat>, reachesEnd: bool)
    requires |pending| < BatchSize
    ensures var r := Batching(pending, items, batch, failing, reachesEnd);
      && (forall b :: batch <= b < batch + |r.inserted| ==> b !in failing)
      && (r.completed ==> reachesEnd)
      && (!r.completed ==> !reachesEnd || batch + |r.inserted| in failing)
    decreases |items|
  {
    if |items| > 0 {
      var p := pending + [items[0]];
      if |p| >= BatchSize {
        BatchingStops([], items[1..], batch + 1, failing, reachesEnd);
      } else {
        BatchingStops(p, items[1..], batch, failing, reachesEnd);
      }
    }
  }

  /**
   * The inserted batches, concatenated, are `pending` followed by the items, in order,
   * when the run completes, and a prefix of that when it stops.
   */
  lemma {:induction false} BatchingInOrder<T>(pending: seq<T>, items: seq<T>, batch: nat, failing: set<nat>, reachesEnd: bool)
    requires |pending| < BatchSize
    ensures var r := Batching(pending, items, batch, failing, reachesEnd);
      && Flatten(r.inserted) <= pending + items
      && (r.completed ==> Flatten(r.inserted) == pending + items)
    decreases |items|
  {
    var r := Batching(pending, items, batch, failing, reachesEnd);
    if |items| > 0 {
      var p := pending + [items[0]];
      assert pending + items == p + items[1..];
      if |p| >= BatchSize {
        BatchingInOrder([], items[1..], batch + 1, failing, reachesEnd);
        if batch !in failing {
          var rest := Batching([], items[1..], batch + 1, failing, reachesEnd);
          assert r.inserted[1..] == rest.inserted;
          assert Flatten(r.inserted) == p + Flatten(rest.inserted);
        }
      } else {
        BatchingInOrder(p, items[1..], batch, failing, reachesEnd);
      }
    }
  }

  /**
   * The whole run: batches are full but the last, the calls that succeeded are numbered
   * from 0, and a completed run inserted the documents of every data record, in file order.
   */
  lemma ImportBatches(file: seq<seq<string>>, ids: nat -> Id, failing: set<nat>)
    ensures var r := Import(file, ids, failing);
      && WellBatched(r.inserted)
      && (forall b :: 0 <= b < |r.inserted| ==> b !in failing)
      && (r.completed ==> |file| > 0 && WellFormedPrefix(file[0], file[1..]) == |file| - 1
                          && Flatten(r.inserted) == Docs(file[0], file[1..], 0, ids))
  {
    if |file| > 0 {
      var headers, records := file[0], file[1..];
      var n := WellFormedPrefix(headers, records);
      LoopIsBatching(headers, records, 0, [], 0, ids, failing);
      var docs := Docs(headers, records[..n], 0, ids);
      BatchingWellBatched([], docs, 0, failing, n == |records|);
      BatchingStops([], docs, 0, failing, n == |records|);
      BatchingInOrder([], docs, 0, failing, n == |records|);
      if Import(file, ids, failing).completed {
        assert records[..n] == records;
      }
    }
  }
}

=== FILE: cache.dfy ===
/**
 * The cache helpers of database/db.cache.go: expiry classes, key prefixes, and the
 * get / set / delete / delete-by-pattern calls against a key-value store, with every
 * store failure made explicit. Expiry is recorded on the entry as a tag; no clock runs.
 */
module Cache {
  import opened Wrappers
  import opened Text
  import opened Models

  // Expiry classes, in seconds.
  const ShortTerm: nat := 5 * 60
  const MediumTerm: nat := 60 * 60
  const LongTerm: nat := 24 * 60 * 60

  const PropertyKeyPrefix := "property:"
  const PropertiesKeyPrefix := "properties:"
  const UserFavoritesKeyPrefix := "user:favorites:"
  const UserKeyPrefix := "user:"

  /** A value the services cache: one property, or the result of a list query. */
  datatype Doc = PropertyDoc(property: Property) | ListDoc(properties: set<Property>)

  /** The Go type a caller decodes into. */
  datatype Shape = OneProperty | PropertyList

  function ShapeOf(d: Doc): Shape {
    if d.PropertyDoc? then OneProperty else PropertyList
  }

  /** The stored bytes: the JSON of a value, or anything else found under the key. */
  datatype Payload = Json(doc: Doc) | Garbled(bytes: string)

  datatype Entry = Entry(payload: Payload, ttl: nat)

  type Store = map<string, Entry>

  /** json.Marshal. */
  function Encode(d: Doc): Payload {
    Json(d)
  }

  /** json.Unmarshal into a value of the given shape: fails on foreign bytes or a shape mismatch. */
  function Decode(p: Payload, shape: Shape): (r: Option<Doc>)
    ensures r.Some? ==> ShapeOf(r.value) == shape
  {
    match p
    case Json(d) => if ShapeOf(d) == shape then Some(d) else None
    case Garbled(_) => None
  }

  lemma DecodeEncode(d: Doc)
    ensures Decode(Encode(d), ShapeOf(d)) == Some(d)
  {
  }

  /** The three outcomes of GetFromCache: (true, nil), (false, nil) and (false, err). */
  datatype Lookup = Hit(doc: Doc) | Miss | DecodeError

  /**
   * GetFromCache. `ok` says whether the GET call succeeds; an absent key is a failed GET
   * (redis.Nil) and so is reported exactly like an unreachable cache.
   */
  function GetFromCache(c: Store, key: string, shape: Shape, ok: bool): (r: Lookup)
    ensures r.Hit? <==> ok && key in c && Decode(c[key].payload, shape).Some?
    ensures r.Hit? ==> ShapeOf(r.doc) == shape && c[key].payload == Encode(r.doc)
    ensures r.DecodeError? <==> ok && key in c && Decode(c[key].payload, shape).None?
  {
    if !ok || key !in c then Miss
    else match Decode(c[key].payload, shape)
      case Some(d) => Hit(d)
      case None => DecodeError
  }

  /** The new cache contents after a call, and whether the call reported an error. */
  datatype Step = Step(cache: Store, failed: bool)

  /** SetInCache: on success the key holds the encoded value with the given expiry. */
  function SetInCache(c: Store, key: string, d: Doc, ttl: nat, ok: bool): (r: Step)
    ensures r.failed <==> !ok
    ensures ok ==> key in r.cache && r.cache[key] == Entry(Encode(d), ttl)
    ensures forall k :: k != key ==> (k in r.cache <==> k in c) && (k in c ==> r.cache[k] == c[k])
    ensures !ok ==> r.cache == c
  {
    if ok then Step(c[key := Entry(Encode(d), ttl)], false) else Step(c, true)
  }

  /** With the cache reachable, reading back a key just written returns the value written. */
  lemma SetThenGet(c: Store, key: string, d: Doc, ttl: nat)
    ensures GetFromCache(SetInCache(c, key, d, ttl, true).cache, key, ShapeOf(d), true) == Hit(d)
  {
  }

  /** DeleteFromCache: on success the key is gone and nothing else changed. */
  function DeleteFromCache(c: Store, key: string, ok: bool): (r: Step)
    ensures r.failed <==> !ok
    ensures ok ==> key !in r.cache && r.cache.Keys == c.Keys - {key}
    ensures !ok ==> r.cache == c
    ensures forall k :: k in r.cache ==> k in c && r.cache[k] == c[k]
  {
    if ok then Step(c - {key}, false) else Step(c, true)
  }

  /** The keys that the glob `prefix*` matches. */
  function Matching(c: Store, prefix: string): (ks: set<string>)
    ensures forall k :: k in ks <==> k in c && HasPrefix(k, prefix)
  {
    set k | k in c && HasPrefix(k, prefix)
  }

  /**
   * DeleteByPattern(prefix + "*"): KEYS, then one DEL of every match, skipped when there is
   * none. `keysOk` and `delOk` say whether those two calls succeed.
   */
  function DeleteByPattern(c: Store, prefix: string, keysOk: bool, delOk: bool): (r: Step)
    ensures r.failed <==> !keysOk || (delOk == false && exists k :: k in c && HasPrefix(k, prefix))
    ensures !r.failed ==> forall k :: k in r.cache <==> k in c && !HasPrefix(k, prefix)
    ensures r.failed ==> r.cache == c
    ensures forall k :: k in r.cache ==> k in c && r.cache[k] == c[k]
  {
    if !keysOk then Step(c, true)
    else
      var ks := Matching(c, prefix);
      if ks == {} then Step(c, false)
      else if !delOk then Step(c, true)
      else Step(c - ks, false)
  }

  /** With no key matching, a sweep that succeeds is a no-op. */
  lemma SweepWithoutMatchIsNoOp(c: Store, prefix: string, delOk: bool)
    requires forall k :: k in c ==> !HasPrefix(k, prefix)
    ensures DeleteByPattern(c, prefix, true, delOk) == Step(c, false)
  {
  }

  function PropertyKey(propertyId: string): string {
    PropertyKeyPrefix + propertyId
  }

  function UserFavoritesKey(userId: string): string {
    UserFavoritesKeyPrefix + userId
  }

  function UserKey(userId: string): string {
    UserKeyPrefix + userId
  }

  /** A single-property key is never matched by the `properties:*` sweep. */
  lemma PropertyKeyNotSwept(propertyId: string)
    ensures !HasPrefix(PropertyKey(propertyId), PropertiesKeyPrefix)
  {
    assert PropertyKey(propertyId)[8] == ':' != PropertiesKeyPrefix[8];
  }

  /**
   * ClearPropertyCache: DEL of `property:<id>` (cache call 0), then the `properties:*` sweep
   * (calls 1 and 2). Failures are only logged, so it returns no error.
   */
  function ClearPropertyCache(c: Store, propertyId: string, down: set<nat>): (r: Store)
    ensures forall k :: k in r ==> k in c && r[k] == c[k]
    ensures forall k :: k in c && k !in r ==> k == PropertyKey(propertyId) || HasPrefix(k, PropertiesKeyPrefix)
    ensures 0 !in down ==> PropertyKey(propertyId) !in r
    ensures 1 !in down && 2 !in down ==> forall k :: k in r ==> !HasPrefix(k, PropertiesKeyPrefix)
    ensures down == {} ==> r.Keys == c.Keys - {PropertyKey(propertyId)} - Matching(c, PropertiesKeyPrefix)
  {
    var afterKey := DeleteFromCache(c, PropertyKey(propertyId), 0 !in down).cache;
    DeleteByPattern(afterKey, PropertiesKeyPrefix, 1 !in down, 2 !in down).cache
  }

  /** ClearUserFavoritesCache: DEL of `user:favorites:<id>` only (cache call 0). */
  function ClearUserFavoritesCache(c: Store, userId: string, down: set<nat>): (r: Store)
    ensures forall k :: k in c && k != UserFavoritesKey(userId) ==> k in r && r[k] == c[k]
    ensures forall k :: k in r ==> k in c
    ensures 0 !in down ==> UserFavoritesKey(userId) !in r
  {
    DeleteFromCache(c, UserFavoritesKey(userId), 0 !in down).cache
  }

  /** ClearUserCache: DEL of `user:<id>` only (cache call 0). */
  function ClearUserCache(c: Store, userId: string, down: set<nat>): (r: Store)
    ensures forall k :: k in c && k != UserKey(userId) ==> k in r && r[k] == c[k]
    ensures forall k :: k in r ==> k in c
    ensures 0 !in down ==> UserKey(userId) !in r
  {
    DeleteFromCache(c, UserKey(userId), 0 !in down).cache
  }

  /**
   * Key derivation is not injective across prefixes: the user key of "favorites:<id>" is the
   * favorites key of <id>, so clearing that user record clears those favorites.
   */
  lemma UserKeyCollidesWithFavoritesKey(userId: string)
    ensures UserKey("favorites:" + userId) == UserFavoritesKey(userId)
    ensures forall c: Store, down: set<nat> ::
      ClearUserCache(c, "favorites:" + userId, down) == ClearUserFavoritesCache(c, userId, down)
  {
    assert UserKey("favorites:" + userId) == UserFavoritesKey(userId);
  }

  /** The expiry classes are strictly ordered. */
  lemma ExpiryClassesOrdered()
    ensures ShortTerm < MediumTerm < LongTerm
  {
  }
}

=== FILE: csv_import.dfy ===
/**
 * ImportPropertiesFromCSV (handlers/property/import_csv.go): the header map, the
 * required-header check, the per-row validation and parsing, and the per-row loop that
 * creates properties through CreateAProperty and tallies the outcomes.
 */
module CsvImport {
  import opened Wrappers
  import opened Text
  import opened Models
  import opened Cache
  import opened PropertyService

  /** Header lookup ignores case and surrounding white space. */
  function NormalizeHeader(h: string): (r: string)
    ensures r == [] || (!IsSpace(r[0]) && !IsSpace(r[|r| - 1]))
    ensures forall i :: 0 <= i < |r| ==> !('A' <= r[i] <= 'Z')
    ensures |r| <= |h|
  {
    var lower := ToLower(h);
    assert forall i :: 0 <= i < |lower| ==> !('A' <= lower[i] <= 'Z');
    TrimSpace(lower)
  }

  /** `f` applied to every element. */
  function MapStrings(f: string -> string, xs: seq<string>): (r: seq<string>)
    ensures |r| == |xs|
    ensures forall i :: 0 <= i < |r| ==> r[i] == f(xs[i])
  {
    if |xs| == 0 then [] else [f(xs[0])] + MapStrings(f, xs[1..])
  }

  /** Each name to the position of its last occurrence in `names`. */
  function LastIndex(names: seq<string>): (m: map<string, nat>)
    ensures forall h :: h in m <==> h in names
    ensures forall h :: h in m ==> m[h] < |names| && names[m[h]] == h
    ensures forall h, j :: h in m && m[h] < j < |names| ==> names[j] != h
  {
    if |names| == 0 then map[]
    else
      var last := |names| - 1;
      var m := LastIndex(names[..last]);
      assert names == names[..last] + [names[last]];
      m[names[last] := last]
  }

  /** The header map: each normalised header name to the column it names; a later duplicate wins. */
  function HeaderMap(headers: seq<string>): (m: map<string, nat>)
    ensures forall i :: 0 <= i < |headers| ==> NormalizeHeader(headers[i]) in m
    ensures forall h :: h in m ==> m[h] < |headers| && NormalizeHeader(headers[m[h]]) == h
    ensures forall h, j :: h in m && m[h] < j < |headers| ==> NormalizeHeader(headers[j]) != h
  {
    NormalizedLastIndex(headers);
    LastIndex(MapStrings(NormalizeHeader, headers))
  }

  /** LastIndex over the normalised names, stated column by column. */
  lemma NormalizedLastIndex(headers: seq<string>)
    ensures var m := LastIndex(MapStrings(NormalizeHeader, headers));
      && (forall i :: 0 <= i < |headers| ==> NormalizeHeader(headers[i]) in m)
      && (forall h :: h in m ==> m[h] < |headers| && NormalizeHeader(headers[m[h]]) == h)
      && (forall h, j :: h in m && m[h] < j < |headers| ==> NormalizeHeader(headers[j]) != h)
  {
    var names := MapStrings(NormalizeHeader, headers);
    var m := LastIndex(names);
    forall i | 0 <= i < |headers| ensures NormalizeHeader(headers[i]) in m {
      assert names[i] == NormalizeHeader(headers[i]);
    }
    forall h, j | h in m && m[h] < j < |headers| ensures NormalizeHeader(headers[j]) != h {
      assert names[j] == NormalizeHeader(headers[j]);
    }
  }

  /**
   * Every header is found under its normalised name, at its own column or a later one
   * with the same normalised name, and nothing else is in the map.
   */
  lemma HeaderLookup(headers: seq<string>, name: string)
    ensures name in HeaderMap(headers) <==> exists i :: 0 <= i < |headers| && NormalizeHeader(headers[i]) == name
    ensures name in HeaderMap(headers) ==>
      && HeaderMap(headers)[name] < |headers|
      && NormalizeHeader(headers[HeaderMap(headers)[name]]) == name
      && forall j :: HeaderMap(headers)[name] < j < |headers| ==> NormalizeHeader(headers[j]) != name
  {
    var names := MapStrings(NormalizeHeader, headers);
    if name in HeaderMap(headers) {
      assert names[HeaderMap(headers)[name]] == name;
    }
    if exists i :: 0 <= i < |headers| && NormalizeHeader(headers[i]) == name {
      var i :| 0 <= i < |headers| && NormalizeHeader(headers[i]) == name;
      assert names[i] == name;
    }
  }

  const RequiredFields: seq<string> := ["title", "type", "price", "state", "city"]

  /** The first of `fields` that the header map lacks. */
  function FirstMissing(fields: seq<string>, hm: map<string, nat>): (r: Option<string>)
    ensures r.None? <==> forall i :: 0 <= i < |fields| ==> fields[i] in hm
    ensures r.Some? ==> r.value in fields && r.value !in hm
  {
    if |fields| == 0 then None
    else if fields[0] !in hm then Some(fields[0])
    else
      assert forall i :: 1 <= i < |fields| ==> fields[i] == fields[1..][i - 1];
      FirstMissing(fields[1..], hm)
  }

  /** The field FirstMissing names is preceded only by fields the header map has. */
  lemma {:induction false} FirstMissingIsFirst(fields: seq<string>, hm: map<string, nat>)
    requires FirstMissing(fields, hm).Some?
    ensures exists i :: (&& 0 <= i < |fields| && fields[i] == FirstMissing(fields, hm).value
                         && forall j :: 0 <= j < i ==> fields[j] in hm)
  {
    if fields[0] in hm {
      FirstMissingIsFirst(fields[1..], hm);
      var i :| 0 <= i < |fields[1..]| && fields[1..][i] == FirstMissing(fields[1..], hm).value
        && forall j :: 0 <= j < i ==> fields[1..][j] in hm;
      forall j | 0 <= j < i + 1 ensures fields[j] in hm {
        if j > 0 { assert fields[j] == fields[1..][j - 1]; }
      }
      assert fields[i + 1] == FirstMissing(fields, hm).value;
    } else {
      assert fields[0] == FirstMissing(fields, hm).value;
    }
  }

  // ---------------------------------------------------------------------------
  // One data row

  /** The trimmed cell of a named column, or None when the column is unknown or past the row's end. */
  function TrimmedCell(hm: map<string, nat>, row: seq<string>, name: string): Option<string> {
    if name in hm && hm[name] < |row| then Some(TrimSpace(row[hm[name]])) else None
  }

  /** An optional integer column: 0 when absent, blank or unparseable. */
  function OptionalInt(hm: map<string, nat>, row: seq<string>, name: string): (n: int)
    ensures TrimmedCell(hm, row, name).Some? && ParseInt64(TrimmedCell(hm, row, name).value).Some? ==>
      n == ParseInt64(TrimmedCell(hm, row, name).value).value
    ensures TrimmedCell(hm, row, name).None? || ParseInt64(TrimmedCell(hm, row, name).value).None? ==> n == 0
  {
    match TrimmedCell(hm, row, name)
    case Some(v) => if v != "" then ParseInt64(v).GetOr(0) else 0
    case None => 0
  }

  function TrimAll(parts: seq<string>): (r: seq<string>)
    ensures |r| == |parts|
    ensures forall i :: 0 <= i < |r| ==> r[i] == TrimSpace(parts[i])
  {
    if |parts| == 0 then []
    else
      var rest := TrimAll(parts[1..]);
      assert forall i :: 0 <= i < |rest| ==> rest[i] == TrimSpace(parts[i + 1]);
      [TrimSpace(parts[0])] + rest
  }

  /** Every element TrimAll yields is already trimmed. */
  lemma TrimAllTrimmed(parts: seq<string>)
    ensures forall i :: 0 <= i < |parts| ==> TrimSpace(TrimAll(parts)[i]) == TrimAll(parts)[i]
  {
    forall i | 0 <= i < |parts|
      ensures TrimSpace(TrimAll(parts)[i]) == TrimAll(parts)[i]
    {
      TrimSpaceIdempotent(parts[i]);
    }
  }

  /** A list column: split on "|", each element trimmed; empty when absent or blank. */
  function ListCell(hm: map<string, nat>, row: seq<string>, name: string): (r: seq<string>)
    ensures forall i :: 0 <= i < |r| ==> TrimSpace(r[i]) == r[i]
    ensures TrimmedCell(hm, row, name).Some? && TrimmedCell(hm, row, name).value != "" ==>
      && |r| == |Split(TrimmedCell(hm, row, name).value, '|')|
      && forall i :: 0 <= i < |r| ==> r[i] == TrimSpace(Split(TrimmedCell(hm, row, name).value, '|')[i])
    ensures TrimmedCell(hm, row, name).None? || TrimmedCell(hm, row, name).value == "" ==> r == []
  {
    match TrimmedCell(hm, row, name)
    case Some(v) =>
      if v != "" then
        TrimAllTrimmed(Split(v, '|'));
        TrimAll(Split(v, '|'))
      else []
    case None => []
  }

  /** isVerified: "true", "yes" or "1", in any letter case, around any white space. */
  function VerifiedCell(hm: map<string, nat>, row: seq<string>): (b: bool)
    ensures b <==> (&& TrimmedCell(hm, row, "isverified").Some?
                    && var v := ToLower(TrimmedCell(hm, row, "isverified").value);
                       v == "true" || v == "yes" || v == "1")
  {
    match TrimmedCell(hm, row, "isverified")
    case Some(v) => v != "" && ToLower(v) in {"true", "yes", "1"}
    case None => false
  }

  function RowLabel(rowNum: nat): string {
    "Row " + NatToString(rowNum) + ": "
  }

  /** A required text column fails only when present in the row and blank after trimming. */
  predicate Blank(hm: map<string, nat>, row: seq<string>, name: string) {
    TrimmedCell(hm, row, name) == Some("")
  }

  /** The price column fails when present and not a positive base-10 64-bit integer. */
  predicate BadPrice(hm: map<string, nat>, row: seq<string>) {
    var v := TrimmedCell(hm, row, "price");
    v.Some? && (ParseInt64(v.value).None? || ParseInt64(v.value).value <= 0)
  }

  /**
   * The validation and parsing of one data row; `rowNum` is its position counting the header
   * as row 1. The checks run title, type, price, state, city, and the first failure names
   * the row.
   */
  function ParseRow(hm: map<string, nat>, row: seq<string>, rowNum: nat, owner: Id, id: Id, now: Time): (r: Result<Property>)
    ensures r.Ok? <==> (&& !Blank(hm, row, "title") && !Blank(hm, row, "type") && !BadPrice(hm, row)
                        && !Blank(hm, row, "state") && !Blank(hm, row, "city"))
    ensures Blank(hm, row, "title") ==> r == Err(RowLabel(rowNum) + "Title is required")
    ensures !Blank(hm, row, "title") && Blank(hm, row, "type") ==> r == Err(RowLabel(rowNum) + "Type is required")
    ensures !Blank(hm, row, "title") && !Blank(hm, row, "type") && BadPrice(hm, row) ==>
      r == Err(RowLabel(rowNum) + "Invalid price value")
    ensures !Blank(hm, row, "title") && !Blank(hm, row, "type") && !BadPrice(hm, row) && Blank(hm, row, "state") ==>
      r == Err(RowLabel(rowNum) + "State is required")
    ensures (&& !Blank(hm, row, "title") && !Blank(hm, row, "type") && !BadPrice(hm, row)
             && !Blank(hm, row, "state") && Blank(hm, row, "city")) ==>
      r == Err(RowLabel(rowNum) + "City is required")
    ensures r.Ok? ==> r.value.id == id && r.value.createdBy == owner && r.value.createdAt == now
    ensures r.Ok? ==> (r.value.title == "" <==> TrimmedCell(hm, row, "title").None?)
    ensures r.Ok? && TrimmedCell(hm, row, "price").Some? ==> r.value.price > 0
    ensures r.Ok? && TrimmedCell(hm, row, "price").None? ==> r.value.price == 0
  {
    var prefix := RowLabel(rowNum);
    if Blank(hm, row, "title") then Err(prefix + "Title is required")
    else if Blank(hm, row, "type") then Err(prefix + "Type is required")
    else if BadPrice(hm, row) then Err(prefix + "Invalid price value")
    else if Blank(hm, row, "state") then Err(prefix + "State is required")
    else if Blank(hm, row, "city") then Err(prefix + "City is required")
    else
      var price := if TrimmedCell(hm, row, "price").Some? then ParseInt64(TrimmedCell(hm, row, "price").value).value else 0;
      var p := NewProperty(id, owner, now).(
        title := TrimmedCell(hm, row, "title").GetOr(""),
        propertyType := TrimmedCell(hm, row, "type").GetOr(""),
        price := price,
        state := TrimmedCell(hm, row, "state").GetOr(""),
        city := TrimmedCell(hm, row, "city").GetOr(""),
        areaSqFt := OptionalInt(hm, row, "areasqft"),
        bedrooms := OptionalInt(hm, row, "bedrooms"),
        bathrooms := OptionalInt(hm, row, "bathrooms"),
        amenities := ListCell(hm, row, "amenities"),
        furnished := TrimmedCell(hm, row, "furnished").GetOr(""),
        listedBy := TrimmedCell(hm, row, "listedby").GetOr(""),
        tags := ListCell(hm, row, "tags"),
        colorTheme := TrimmedCell(hm, row, "colortheme").GetOr(""),
        isVerified := VerifiedCell(hm, row),
        listingType := TrimmedCell(hm, row, "listingtype").GetOr(""));
      Ok(p)
  }

  /**
   * Every field of an accepted row: the text columns trimmed (empty when the column is absent),
   * the price as parsed, the optional numbers, the two lists and the verified flag.
   */
  lemma ParsedFields(hm: map<string, nat>, row: seq<string>, rowNum: nat, owner: Id, id: Id, now: Time)
    requires ParseRow(hm, row, rowNum, owner, id, now).Ok?
    ensures var p := ParseRow(hm, row, rowNum, owner, id, now).value;
      && p.title == TrimmedCell(hm, row, "title").GetOr("")
      && p.propertyType == TrimmedCell(hm, row, "type").GetOr("")
      && p.state == TrimmedCell(hm, row, "state").GetOr("")
      && p.city == TrimmedCell(hm, row, "city").GetOr("")
      && p.furnished == TrimmedCell(hm, row, "furnished").GetOr("")
      && p.listedBy == TrimmedCell(hm, row, "listedby").GetOr("")
      && p.colorTheme == TrimmedCell(hm, row, "colortheme").GetOr("")
      && p.listingType == TrimmedCell(hm, row, "listingtype").GetOr("")
      && (TrimmedCell(hm, row, "price").Some? ==> Some(p.price) == ParseInt64(TrimmedCell(hm, row, "price").value))
      && p.areaSqFt == OptionalInt(hm, row, "areasqft")
      && p.bedrooms == OptionalInt(hm, row, "bedrooms")
      && p.bathrooms == OptionalInt(hm, row, "bathrooms")
      && p.amenities == ListCell(hm, row, "amenities")
      && p.tags == ListCell(hm, row, "tags")
      && p.isVerified == VerifiedCell(hm, row)
  {
  }

  /** A row that ends before every column is accepted, with every field at its zero value. */
  lemma EmptyRowAccepted(hm: map<string, nat>, rowNum: nat, owner: Id, id: Id, now: Time)
    ensures ParseRow(hm, [], rowNum, owner, id, now) == Ok(NewProperty(id, owner, now))
  {
    EmptyRowCells(hm);
  }

  /** In a row with no cells every column reads as absent. */
  lemma EmptyRowCells(hm: map<string, nat>)
    ensures forall name :: TrimmedCell(hm, [], name) == None
    ensures !Blank(hm, [], "title") && !Blank(hm, [], "type") && !BadPrice(hm, []) && !Blank(hm, [], "state") && !Blank(hm, [], "city")
    ensures OptionalInt(hm, [], "areasqft") == OptionalInt(hm, [], "bedrooms") == OptionalInt(hm, [], "bathrooms") == 0
    ensures ListCell(hm, [], "amenities") == ListCell(hm, [], "tags") == []
    ensures !VerifiedCell(hm, [])
  {
    forall name | true
      ensures TrimmedCell(hm, [], name) == None
    {
    }
    assert TrimmedCell(hm, [], "isverified") == None;
    assert TrimmedCell(hm, [], "amenities") == None && TrimmedCell(hm, [], "tags") == None;
  }

  // ---------------------------------------------------------------------------
  // The row loop and the response

  /** What the environment supplies for the data row at a given index: a fresh id, the clock, the outages. */
  datatype RowEnv = RowEnv(id: Id, now: Time, outages: Outages)

  datatype Tally = Tally(world: World, created: seq<Property>, errors: seq<string>)

  /** The outcome of one data row, as a Tally over the world before it. */
  function ImportRow(w: World, hm: map<string, nat>, row: seq<string>, index: nat, owner: Id, e: RowEnv): (t: Tally)
    ensures |t.created| + |t.errors| == 1
    ensures t.created == [] ==> t.world == w
    ensures t.created != [] ==> t.created[0].createdBy == owner
    ensures ParseRow(hm, row, index + 2, owner, e.id, e.now).Err? ==>
      t == Tally(w, [], [ParseRow(hm, row, index + 2, owner, e.id, e.now).error])
    ensures ParseRow(hm, row, index + 2, owner, e.id, e.now).Ok? ==>
      var reply := CreateAProperty(w, ParseRow(hm, row, index + 2, owner, e.id, e.now).value, e.now, e.id, e.outages);
      && (reply.result.Ok? ==> t == Tally(reply.state, [reply.result.value], []))
      && (reply.result.Err? ==> t == Tally(w, [], [RowLabel(index + 2) + "Failed to create property: " + reply.result.error]))
  {
    var rowNum := index + 2;
    match ParseRow(hm, row, rowNum, owner, e.id, e.now)
    case Err(msg) => Tally(w, [], [msg])
    case Ok(p) =>
      var reply := CreateAProperty(w, p, e.now, e.id, e.outages);
      match reply.result
      case Err(err) => Tally(w, [], [RowLabel(rowNum) + "Failed to create property: " + err])
      case Ok(created) => Tally(reply.state, [created], [])
  }

  /** The step taken for a data row: the world before it, the row, its index among the data rows. */
  type RowStep = (World, seq<string>, nat) -> Tally

  /** The step of the upload handler: ImportRow with the header map, the uploader and the environment fixed. */
  function ImportStep(hm: map<string, nat>, owner: Id, env: nat -> RowEnv): RowStep {
    (v: World, row: seq<string>, i: nat) => ImportRow(v, hm, row, i, owner, env(i))
  }

  /** The loop over the data rows, threading the world through `step`; `first` is the index of rows[0]. */
  function RunRows(step: RowStep, w: World, rows: seq<seq<string>>, first: nat): Tally
    decreases |rows|
  {
    if |rows| == 0 then Tally(w, [], [])
    else
      var t := step(w, rows[0], first);
      var rest := RunRows(step, t.world, rows[1..], first + 1);
      Tally(rest.world, t.created + rest.created, t.errors + rest.errors)
  }

  /** A step's outcome: one entry, the world untouched unless a property was created, and that one owned by `owner`. */
  ghost predicate SingleOutcome(t: Tally, before: World, owner: Id) {
    && |t.created| + |t.errors| == 1
    && (t.created == [] ==> t.world == before)
    && (t.created != [] ==> t.created[0].createdBy == owner)
  }

  /** A loop whose every step has a single outcome yields one entry per row, all created ones owned by `owner`. */
  lemma {:induction false} RunRowsOutcomes(step: RowStep, w: World, rows: seq<seq<string>>, first: nat, owner: Id)
    requires forall v, row, i :: SingleOutcome(step(v, row, i), v, owner)
    ensures var t := RunRows(step, w, rows, first);
      && |t.created| + |t.errors| == |rows|
      && (t.created == [] ==> t.world == w)
      && forall i :: 0 <= i < |t.created| ==> t.created[i].createdBy == owner
    decreases |rows|
  {
    if |rows| > 0 {
      var t := step(w, rows[0], first);
      RunRowsOutcomes(step, t.world, rows[1..], first + 1, owner);
      CreatedByJoin(t.created, RunRows(step, t.world, rows[1..], first + 1).created, owner);
    }
  }

  /** Every ImportRow step has a single outcome. */
  lemma ImportStepOutcome(hm: map<string, nat>, owner: Id, env: nat -> RowEnv)
    ensures forall v, row, i :: SingleOutcome(ImportStep(hm, owner, env)(v, row, i), v, owner)
  {
    forall v, row, i
      ensures SingleOutcome(ImportStep(hm, owner, env)(v, row, i), v, owner)
    {
      assert ImportStep(hm, owner, env)(v, row, i) == ImportRow(v, hm, row, i, owner, env(i));
    }
  }

  /** The handler's loop over the data rows; `first` is the index of rows[0] among all data rows. */
  function ImportRows(w: World, hm: map<string, nat>, rows: seq<seq<string>>, first: nat, owner: Id, env: nat -> RowEnv): (t: Tally)
    ensures |t.created| + |t.errors| == |rows|
    ensures t.created == [] ==> t.world == w
    ensures forall i :: 0 <= i < |t.created| ==> t.created[i].createdBy == owner
  {
    ImportStepOutcome(hm, owner, env);
    RunRowsOutcomes(ImportStep(hm, owner, env), w, rows, first, owner);
    RunRows(ImportStep(hm, owner, env), w, rows, first)
  }

  /** Joining two runs of created properties keeps every one created by `owner`. */
  lemma CreatedByJoin(a: seq<Property>, b: seq<Property>, owner: Id)
    requires forall i :: 0 <= i < |a| ==> a[i].createdBy == owner
    requires forall i :: 0 <= i < |b| ==> b[i].createdBy == owner
    ensures forall i :: 0 <= i < |a + b| ==> (a + b)[i].createdBy == owner
  {
  }

  /** One well-formed row with the store up and a new id is created as parsed, and nothing else is stored. */
  lemma ValidRowCreated(w: World, hm: map<string, nat>, row: seq<string>, index: nat, owner: Id, e: RowEnv)
    requires 0 !in e.outages.store && e.id !in w.props
    requires ParseRow(hm, row, index + 2, owner, e.id, e.now).Ok?
    ensures var t := ImportRow(w, hm, row, index, owner, e);
      && t.errors == []
      && t.created == [ParseRow(hm, row, index + 2, owner, e.id, e.now).value]
      && forall x :: x in t.world.props ==> x in w.props || x == e.id
  {
  }

  /** A row parser with the header map and the owner fixed: the row, its 1-based line number, its environment. */
  type RowParser = (seq<string>, nat, RowEnv) -> Result<Property>

  /**
   * Rows `first`, `first + 1`, ... all parse to `want`, with the store up for each and each
   * fresh id outside `taken` and unused by the rows before it.
   */
  ghost predicate RowsCreatable(parse: RowParser, taken: set<Id>, rows: seq<seq<string>>, first: nat, env: nat -> RowEnv, want: seq<Property>)
    decreases |rows|
  {
    && |want| == |rows|
    && (|rows| > 0 ==>
          && 0 !in env(first).outages.store
          && env(first).id !in taken
          && parse(rows[0], first + 2, env(first)) == Ok(want[0])
          && RowsCreatable(parse, taken + {env(first).id}, rows[1..], first + 1, env, want[1..]))
  }

  /** The rows `first` .. `first + count - 1` get pairwise different fresh ids. */
  ghost predicate DistinctIds(env: nat -> RowEnv, first: nat, count: nat) {
    forall k, l :: first <= k < l < first + count ==> env(k).id != env(l).id
  }

  /** Pairwise different ids for the data rows from the first one on. */
  lemma DistinctFromStart(env: nat -> RowEnv, count: nat)
    requires forall i, j :: 0 <= i < j < count ==> env(i).id != env(j).id
    ensures DistinctIds(env, 0, count)
  {
  }

  /** The row-by-row condition follows from stating it for every row at once. */
  lemma {:induction false} RowsCreatableIfEach(parse: RowParser, taken: set<Id>, rows: seq<seq<string>>, first: nat, env: nat -> RowEnv, want: seq<Property>)
    requires |want| == |rows|
    requires forall k {:trigger env(k)} :: first <= k < first + |rows| ==>
      && 0 !in env(k).outages.store
      && env(k).id !in taken
      && parse(rows[k - first], k + 2, env(k)) == Ok(want[k - first])
    requires DistinctIds(env, first, |rows|)
    ensures RowsCreatable(parse, taken, rows, first, env, want)
    decreases |rows|
  {
    if |rows| > 0 {
      assert first - first == 0;
      forall k | first + 1 <= k < first + 1 + |rows[1..]|
        ensures && 0 !in env(k).outages.store
                && env(k).id !in taken + {env(first).id}
                && parse(rows[1..][k - (first + 1)], k + 2, env(k)) == Ok(want[1..][k - (first + 1)])
      {
        assert rows[1..][k - (first + 1)] == rows[k - first];
        assert want[1..][k - (first + 1)] == want[k - first];
      }
      RowsCreatableIfEach(parse, taken + {env(first).id}, rows[1..], first + 1, env, want[1..]);
    }
  }

  /**
   * With the store up, every row well-formed and every row's fresh id new and distinct from
   * the ids before it, the loop creates every row, in order, exactly as the row parser built it.
   */
  lemma AllValidRowsCreated(w: World, parse: RowParser, taken: set<Id>, hm: map<string, nat>, rows: seq<seq<string>>, first: nat, owner: Id, env: nat -> RowEnv, want: seq<Property>)
    requires forall row, n, e :: parse(row, n, e) == ParseRow(hm, row, n, owner, e.id, e.now)
    requires w.props.Keys <= taken
    requires RowsCreatable(parse, taken, rows, first, env, want)
    ensures ImportRows(w, hm, rows, first, owner, env).errors == []
    ensures ImportRows(w, hm, rows, first, owner, env).created == want
  {
    StepsCreateFrom(w, parse, taken, hm, rows, first, owner, env, want);
    StepsCreateAll(ImportStep(hm, owner, env), w, rows, first, want);
  }

  /** Row by row over the worlds the loop threads: each step creates exactly its wanted property. */
  ghost predicate StepsCreate(step: RowStep, w: World, rows: seq<seq<string>>, first: nat, want: seq<Property>)
    decreases |rows|
  {
    && |want| == |rows|
    && (|rows| > 0 ==>
          var t := step(w, rows[0], first);
          && t.errors == []
          && t.created == [want[0]]
          && StepsCreate(step, t.world, rows[1..], first + 1, want[1..]))
  }

  /** When every step creates its row, the loop reports no error and creates `want`. */
  lemma {:induction false} StepsCreateAll(step: RowStep, w: World, rows: seq<seq<string>>, first: nat, want: seq<Property>)
    requires StepsCreate(step, w, rows, first, want)
    ensures RunRows(step, w, rows, first).errors == []
    ensures RunRows(step, w, rows, first).created == want
    decreases |rows|
  {
    if |rows| > 0 {
      var t := step(w, rows[0], first);
      StepsCreateAll(step, t.world, rows[1..], first + 1, want[1..]);
      assert want == [want[0]] + want[1..];
    }
  }

  /** Rows the parser accepts, with the store up and fresh ids, create their rows step by step. */
  lemma {:induction false} StepsCreateFrom(w: World, parse: RowParser, taken: set<Id>, hm: map<string, nat>, rows: seq<seq<string>>, first: nat, owner: Id, env: nat -> RowEnv, want: seq<Property>)
    requires forall row, n, e :: parse(row, n, e) == ParseRow(hm, row, n, owner, e.id, e.now)
    requires w.props.Keys <= taken
    requires RowsCreatable(parse, taken, rows, first, env, want)
    ensures StepsCreate(ImportStep(hm, owner, env), w, rows, first, want)
    decreases |rows|
  {
    if |rows| > 0 {
      var step := ImportRow(w, hm, rows[0], first, owner, env(first));
      RowStepCreated(w, parse, taken, hm, rows, first, owner, env, want);
      StepsCreateFrom(step.world, parse, taken + {env(first).id}, hm, rows[1..], first + 1, owner, env, want[1..]);
    }
  }

  /** One step of the loop above: the first row is created as parsed, only its id is added, and the rest stay creatable. */
  lemma RowStepCreated(w: World, parse: RowParser, taken: set<Id>, hm: map<string, nat>, rows: seq<seq<string>>, first: nat, owner: Id, env: nat -> RowEnv, want: seq<Property>)
    requires forall row, n, e :: parse(row, n, e) == ParseRow(hm, row, n, owner, e.id, e.now)
    requires w.props.Keys <= taken
    requires |rows| > 0 && RowsCreatable(parse, taken, rows, first, env, want)
    ensures |want| == |rows|
    ensures var t := ImportRow(w, hm, rows[0], first, owner, env(first));
      && t.errors == []
      && t.created == [want[0]]
      && t.world.props.Keys <= taken + {env(first).id}
    ensures RowsCreatable(parse, taken + {env(first).id}, rows[1..], first + 1, env, want[1..])
  {
    ValidRowCreated(w, hm, rows[0], first, owner, env(first));
  }

  /** The loop over every data row of a file, each well-formed, creates them all, in file order. */
  lemma AllValidRowsImported(w: World, hm: map<string, nat>, rows: seq<seq<string>>, owner: Id, env: nat -> RowEnv, want: seq<Property>)
    requires |want| == |rows|
    requires forall i :: 0 <= i < |rows| ==>
      && 0 !in env(i).outages.store
      && env(i).id !in w.props
      && ParseRow(hm, rows[i], i + 2, owner, env(i).id, env(i).now) == Ok(want[i])
    requires forall i, j :: 0 <= i < j < |rows| ==> env(i).id != env(j).id
    ensures ImportRows(w, hm, rows, 0, owner, env).errors == []
    ensures ImportRows(w, hm, rows, 0, owner, env).created == want
  {
    var parse: RowParser := (row: seq<string>, n: nat, e: RowEnv) => ParseRow(hm, row, n, owner, e.id, e.now);
    DistinctFromStart(env, |rows|);
    EveryRowCreatable(w, parse, hm, rows, owner, env, want);
    AllValidRowsCreated(w, parse, w.props.Keys, hm, rows, 0, owner, env, want);
  }

  /** The file-order condition on every row, restated for the row loop starting at the first data row. */
  lemma EveryRowCreatable(w: World, parse: RowParser, hm: map<string, nat>, rows: seq<seq<string>>, owner: Id, env: nat -> RowEnv, want: seq<Property>)
    requires forall row, n, e :: parse(row, n, e) == ParseRow(hm, row, n, owner, e.id, e.now)
    requires |want| == |rows|
    requires forall i :: 0 <= i < |rows| ==>
      && 0 !in env(i).outages.store
      && env(i).id !in w.props
      && ParseRow(hm, rows[i], i + 2, owner, env(i).id, env(i).now) == Ok(want[i])
    requires DistinctIds(env, 0, |rows|)
    ensures RowsCreatable(parse, w.props.Keys, rows, 0, env, want)
  {
    forall k | 0 <= k < |rows|
      ensures && 0 !in env(k).outages.store
              && env(k).id !in w.props.Keys
              && parse(rows[k], k + 2, env(k)) == Ok(want[k])
    {
      assert parse(rows[k], k + 2, env(k)) == ParseRow(hm, rows[k], k + 2, owner, env(k).id, env(k).now);
    }
    RowsCreatableFromStart(parse, w.props.Keys, rows, env, want);
  }

  /** The row-by-row condition for the loop from the first data row on. */
  lemma RowsCreatableFromStart(parse: RowParser, taken: set<Id>, rows: seq<seq<string>>, env: nat -> RowEnv, want: seq<Property>)
    requires |want| == |rows|
    requires forall k :: 0 <= k < |rows| ==>
      && 0 !in env(k).outages.store
      && env(k).id !in taken
      && parse(rows[k], k + 2, env(k)) == Ok(want[k])
    requires DistinctIds(env, 0, |rows|)
    ensures RowsCreatable(parse, taken, rows, 0, env, want)
  {
    RowsCreatableIfEach(parse, taken, rows, 0, env, want);
  }

  /** The multipart upload as the handler sees it: missing, or a named file whose contents open and parse as CSV or not. */
  datatype Upload = NoFile | Uploaded(filename: string, contents: Contents)

  /** The CSV reader's outcome; its record-level parsing is not modelled. */
  datatype Contents = OpenFailed | ParseFailed(reason: string) | Records(records: seq<seq<string>>)

  /** The JSON body of the reply; BadRequest and ServerError are the 400 and 500 replies. */
  datatype Response =
    | BadRequest(error: string, details: seq<string>)
    | ServerError(error: string)
    | Imported(totalProcessed: int, created: seq<Property>, errors: seq<string>)

  datatype Outcome = Outcome(world: World, response: Response)

  /** The import once the records are in hand: the record count, the required headers, then every data row. */
  function ImportRecords(w: World, owner: Id, records: seq<seq<string>>, env: nat -> RowEnv): (r: Outcome)
    ensures |records| < 2 ==> r == Outcome(w, BadRequest("CSV file has insufficient data", []))
    ensures |records| >= 2 && FirstMissing(RequiredFields, HeaderMap(records[0])).Some? ==>
      r == Outcome(w, BadRequest("CSV is missing required field: " + FirstMissing(RequiredFields, HeaderMap(records[0])).value, []))
    ensures !r.response.ServerError?
    ensures r.response.Imported? ==>
      && |records| >= 2 && FirstMissing(RequiredFields, HeaderMap(records[0])).None?
      && r.response.totalProcessed == |records| - 1 == |r.response.created| + |r.response.errors|
      && (r.response.errors == [] || r.response.created != [])
      && forall i :: 0 <= i < |r.response.created| ==> r.response.created[i].createdBy == owner
    ensures !r.response.Imported? ==> r.world == w
    ensures |records| >= 2 && FirstMissing(RequiredFields, HeaderMap(records[0])).None? ==>
      var t := ImportRows(w, HeaderMap(records[0]), records[1..], 0, owner, env);
      && r.world == t.world
      && (r.response.Imported? <==> t.errors == [] || t.created != [])
      && (r.response.Imported? ==> r.response.created == t.created && r.response.errors == t.errors)
      && (!r.response.Imported? ==> r.response == BadRequest("Failed to import any properties", t.errors))
    ensures r.response.BadRequest? && r.response.details != [] ==>
      && r.response.error == "Failed to import any properties"
      && |r.response.details| == |records| - 1
  {
    if |records| < 2 then Outcome(w, BadRequest("CSV file has insufficient data", []))
    else
      var hm := HeaderMap(records[0]);
      match FirstMissing(RequiredFields, hm)
      case Some(field) => Outcome(w, BadRequest("CSV is missing required field: " + field, []))
      case None =>
        var t := ImportRows(w, hm, records[1..], 0, owner, env);
        if t.errors != [] && t.created == [] then
          Outcome(t.world, BadRequest("Failed to import any properties", t.errors))
        else
          Outcome(t.world, Imported(|records| - 1, t.created, t.errors))
  }

  /**
   * A file with the required headers whose data rows are all well-formed, with the store up and
   * fresh ids, imports every row: nothing is reported as an error and the rows come back in order.
   */
  lemma AllValidRecordsImported(w: World, owner: Id, records: seq<seq<string>>, env: nat -> RowEnv, want: seq<Property>)
    requires |records| >= 2 && FirstMissing(RequiredFields, HeaderMap(records[0])).None?
    requires |want| == |records| - 1
    requires forall i :: 0 <= i < |want| ==>
      && 0 !in env(i).outages.store
      && env(i).id !in w.props
      && ParseRow(HeaderMap(records[0]), records[1..][i], i + 2, owner, env(i).id, env(i).now) == Ok(want[i])
    requires forall i, j :: 0 <= i < j < |want| ==> env(i).id != env(j).id
    ensures ImportRecords(w, owner, records, env).response == Imported(|records| - 1, want, [])
  {
    AllValidRowsImported(w, HeaderMap(records[0]), records[1..], owner, env, want);
    ImportedWithoutErrors(w, owner, records, env);
  }

  /** A file whose rows report no error is imported, whatever was created. */
  lemma ImportedWithoutErrors(w: World, owner: Id, records: seq<seq<string>>, env: nat -> RowEnv)
    requires |records| >= 2 && FirstMissing(RequiredFields, HeaderMap(records[0])).None?
    requires ImportRows(w, HeaderMap(records[0]), records[1..], 0, owner, env).errors == []
    ensures ImportRecords(w, owner, records, env).response ==
      Imported(|records| - 1, ImportRows(w, HeaderMap(records[0]), records[1..], 0, owner, env).created, [])
  {
  }

  /**
   * ImportPropertiesFromCSV: the caller's id, the upload, the file name, opening and parsing
   * are checked in that order before the records are imported.
   */
  function ImportPropertiesFromCsv(w: World, userId: string, upload: Upload, env: nat -> RowEnv): (r: Outcome)
    ensures !ValidHex(userId) ==> r == Outcome(w, BadRequest("Invalid user ID format", []))
    ensures ValidHex(userId) && upload.NoFile? ==> r == Outcome(w, BadRequest("No file uploaded or invalid form field", []))
    ensures ValidHex(userId) && upload.Uploaded? && !HasSuffix(upload.filename, ".csv") ==>
      r == Outcome(w, BadRequest("Only CSV files are allowed", []))
    ensures ValidHex(userId) && upload.Uploaded? && HasSuffix(upload.filename, ".csv") && upload.contents.OpenFailed? ==>
      r == Outcome(w, ServerError("Could not open the uploaded file"))
    ensures ValidHex(userId) && upload.Uploaded? && HasSuffix(upload.filename, ".csv") && upload.contents.ParseFailed? ==>
      r == Outcome(w, BadRequest("Could not parse CSV file: " + upload.contents.reason, []))
    ensures ValidHex(userId) && upload.Uploaded? && HasSuffix(upload.filename, ".csv") && upload.contents.Records? ==>
      r == ImportRecords(w, ParseObjectId(userId).value, upload.contents.records, env)
  {
    match ParseObjectId(userId)
    case None => Outcome(w, BadRequest("Invalid user ID format", []))
    case Some(owner) =>
      match upload
      case NoFile => Outcome(w, BadRequest("No file uploaded or invalid form field", []))
      case Uploaded(filename, contents) =>
        if !HasSuffix(filename, ".csv") then Outcome(w, BadRequest("Only CSV files are allowed", []))
        else match contents
          case OpenFailed => Outcome(w, ServerError("Could not open the uploaded file"))
          case ParseFailed(reason) => Outcome(w, BadRequest("Could not parse CSV file: " + reason, []))
          case Records(records) => ImportRecords(w, owner, records, env)
  }
}

=== FILE: list_filters.dfy ===
/**
 * The filter construction of ListProperties (handlers/property/list.go): query parameters
 * become a filter map for the properties collection, and unparseable numbers are dropped.
 */
module ListFilters {
  import opened Wrappers
  import opened Text
  import opened Models
  import opened Cache
  import opened PropertyService

  /** The query string: each parameter's first value. */
  type Query = map<string, string>

  /** ctx.Query: a parameter's value, or "" when absent. */
  function Param(q: Query, name: string): string {
    if name in q then q[name] else ""
  }

  /** The entry a text parameter should leave: present exactly when the parameter is non-empty. */
  predicate TextEntry(f: Filter, q: Query, field: Field) {
    && (field in f <==> Param(q, FieldName(field)) != "")
    && (field in f ==> f[field] == EqStr(Param(q, FieldName(field))))
  }

  /** The entry an integer parameter should leave: present exactly when the parameter parses. */
  predicate IntEntry(f: Filter, q: Query, field: Field) {
    && (field in f <==> Atoi(Param(q, FieldName(field))).Some?)
    && (field in f ==> f[field] == EqInt(Atoi(Param(q, FieldName(field))).value))
  }

  /** The price entry: whichever of the two bounds parse, in one range. */
  predicate PriceEntry(f: Filter, q: Query) {
    var lo := ParseInt64(Param(q, "minPrice"));
    var hi := ParseInt64(Param(q, "maxPrice"));
    && (Price in f <==> lo.Some? || hi.Some?)
    && (Price in f ==> f[Price] == Range(lo, hi))
  }

  /** `g` agrees with `f` everywhere except possibly at `field`. */
  ghost predicate SameElsewhere(f: Filter, g: Filter, field: Field) {
    forall k :: k != field ==> (k in g <==> k in f) && (k in g ==> g[k] == f[k])
  }

  /** A non-empty text parameter becomes an equality entry on the field of the same name. */
  function AddText(f: Filter, q: Query, field: Field): (g: Filter)
    requires field !in f
    ensures TextEntry(g, q, field) && SameElsewhere(f, g, field)
  {
    if Param(q, FieldName(field)) != "" then f[field := EqStr(Param(q, FieldName(field)))] else f
  }

  /** An integer parameter that parses becomes an equality entry on the field of the same name. */
  function AddInt(f: Filter, q: Query, field: Field): (g: Filter)
    requires field !in f
    ensures IntEntry(g, q, field) && SameElsewhere(f, g, field)
  {
    match Atoi(Param(q, FieldName(field)))
    case Some(n) => f[field := EqInt(n)]
    case None => f
  }

  /** minPrice gives price = {$gte}; maxPrice adds $lte to that map, or starts one of its own. */
  function AddPrice(f: Filter, q: Query): (g: Filter)
    requires Price !in f
    ensures PriceEntry(g, q) && SameElsewhere(f, g, Price)
  {
    var withMin := match ParseInt64(Param(q, "minPrice"))
      case Some(lo) => f[Price := Range(Some(lo), None)]
      case None => f;
    match ParseInt64(Param(q, "maxPrice"))
    case Some(hi) =>
      if Price in withMin && withMin[Price].Range? then withMin[Price := withMin[Price].(lte := Some(hi))]
      else withMin[Price := Range(None, Some(hi))]
    case None => withMin
  }

  /** The entries for other fields survive a step that touches only `field`. */
  lemma EntriesKept(f: Filter, g: Filter, q: Query, field: Field, other: Field)
    requires SameElsewhere(f, g, field) && field != other
    ensures TextEntry(f, q, other) ==> TextEntry(g, q, other)
    ensures IntEntry(f, q, other) ==> IntEntry(g, q, other)
    ensures other == Price && PriceEntry(f, q) ==> PriceEntry(g, q)
  {
  }

  /** The filter map ListProperties hands to GetAllProperties, built in the handler's order. */
  function BuildFilters(q: Query): (f: Filter)
    ensures TextEntry(f, q, TypeField) && TextEntry(f, q, City) && TextEntry(f, q, State)
    ensures TextEntry(f, q, Furnished)
    ensures IntEntry(f, q, Bedrooms) && IntEntry(f, q, Bathrooms)
    ensures PriceEntry(f, q)
  {
    var f1 := AddText(map[], q, TypeField);
    var f2 := AddText(f1, q, City);
    EntriesKept(f1, f2, q, City, TypeField);
    var f3 := AddText(f2, q, State);
    EntriesKept(f2, f3, q, State, TypeField);
    EntriesKept(f2, f3, q, State, City);
    var f4 := AddPrice(f3, q);
    EntriesKept(f3, f4, q, Price, TypeField);
    EntriesKept(f3, f4, q, Price, City);
    EntriesKept(f3, f4, q, Price, State);
    var f5 := AddInt(f4, q, Bedrooms);
    EntriesKept(f4, f5, q, Bedrooms, TypeField);
    EntriesKept(f4, f5, q, Bedrooms, City);
    EntriesKept(f4, f5, q, Bedrooms, State);
    EntriesKept(f4, f5, q, Bedrooms, Price);
    var f6 := AddInt(f5, q, Bathrooms);
    EntriesKept(f5, f6, q, Bathrooms, TypeField);
    EntriesKept(f5, f6, q, Bathrooms, City);
    EntriesKept(f5, f6, q, Bathrooms, State);
    EntriesKept(f5, f6, q, Bathrooms, Price);
    EntriesKept(f5, f6, q, Bathrooms, Bedrooms);
    var f7 := AddText(f6, q, Furnished);
    EntriesKept(f6, f7, q, Furnished, TypeField);
    EntriesKept(f6, f7, q, Furnished, City);
    EntriesKept(f6, f7, q, Furnished, State);
    EntriesKept(f6, f7, q, Furnished, Price);
    EntriesKept(f6, f7, q, Furnished, Bedrooms);
    EntriesKept(f6, f7, q, Furnished, Bathrooms);
    f7
  }

  /** Without parameters the filter is empty. */
  lemma NoParametersNoFilter()
    ensures BuildFilters(map[]) == map[]
  {
    var f := BuildFilters(map[]);
    assert forall k: Field :: k !in f by {
      forall k: Field ensures k !in f {
        match k
        case TypeField =>
        case City =>
        case State =>
        case Furnished =>
        case Price =>
        case Bedrooms =>
        case Bathrooms =>
      }
    }
    assert f.Keys == {};
  }

  /** What a query asks of a property, parameter by parameter. */
  predicate SatisfiesQuery(p: Property, q: Query) {
    && (Param(q, "type") != "" ==> p.propertyType == Param(q, "type"))
    && (Param(q, "city") != "" ==> p.city == Param(q, "city"))
    && (Param(q, "state") != "" ==> p.state == Param(q, "state"))
    && (Param(q, "furnished") != "" ==> p.furnished == Param(q, "furnished"))
    && (ParseInt64(Param(q, "minPrice")).Some? ==> ParseInt64(Param(q, "minPrice")).value <= p.price)
    && (ParseInt64(Param(q, "maxPrice")).Some? ==> p.price <= ParseInt64(Param(q, "maxPrice")).value)
    && (Atoi(Param(q, "bedrooms")).Some? ==> p.bedrooms == Atoi(Param(q, "bedrooms")).value)
    && (Atoi(Param(q, "bathrooms")).Some? ==> p.bathrooms == Atoi(Param(q, "bathrooms")).value)
  }

  /** A property matches the built filter exactly when it satisfies every parameter of the query. */
  lemma FilterMeansQuery(p: Property, q: Query)
    ensures Matches(p, BuildFilters(q)) <==> SatisfiesQuery(p, q)
  {
    if SatisfiesQuery(p, q) {
      QueryImpliesFilter(p, q);
    }
    if Matches(p, BuildFilters(q)) {
      FilterImpliesQuery(p, q);
    }
  }

  lemma QueryImpliesFilter(p: Property, q: Query)
    requires SatisfiesQuery(p, q)
    ensures Matches(p, BuildFilters(q))
  {
    var f := BuildFilters(q);
    forall field | field in f ensures Satisfies(FieldValue(p, field), f[field]) {
      match field
      case TypeField =>
      case City =>
      case State =>
      case Furnished =>
      case Price =>
      case Bedrooms =>
      case Bathrooms =>
    }
  }

  lemma FilterImpliesQuery(p: Property, q: Query)
    requires Matches(p, BuildFilters(q))
    ensures SatisfiesQuery(p, q)
  {
    var f := BuildFilters(q);
    if Param(q, "type") != "" { assert Satisfies(FieldValue(p, TypeField), f[TypeField]); }
    if Param(q, "city") != "" { assert Satisfies(FieldValue(p, City), f[City]); }
    if Param(q, "state") != "" { assert Satisfies(FieldValue(p, State), f[State]); }
    if Param(q, "furnished") != "" { assert Satisfies(FieldValue(p, Furnished), f[Furnished]); }
    if Atoi(Param(q, "bedrooms")).Some? { assert Satisfies(FieldValue(p, Bedrooms), f[Bedrooms]); }
    if Atoi(Param(q, "bathrooms")).Some? { assert Satisfies(FieldValue(p, Bathrooms), f[Bathrooms]); }
    if Price in f { assert Satisfies(FieldValue(p, Price), f[Price]); }
  }

  /** An empty query lists every stored property. */
  lemma EmptyQueryListsAll(p: Property)
    ensures Matches(p, BuildFilters(map[]))
  {
  }

  /**
   * ListProperties: the filters built from the query, handed to GetAllProperties with the
   * cache key text `encoded` (None when marshalling the filters fails).
   */
  function ListProperties(w: World, q: Query, encoded: Option<string>, f: Outages): (r: Reply<World, set<Property>>)
    ensures r.state.props == w.props
    ensures encoded.Some? && GetFromCache(w.cache, PropertiesKeyPrefix + encoded.value, PropertyList, 0 !in f.cache).Hit? ==>
      r == Reply(w, Ok(GetFromCache(w.cache, PropertiesKeyPrefix + encoded.value, PropertyList, true).doc.properties))
    ensures (|| encoded.None?
             || !GetFromCache(w.cache, PropertiesKeyPrefix + encoded.value, PropertyList, 0 !in f.cache).Hit?)
            && 0 !in f.store ==>
      r.result.Ok? && forall p :: p in r.result.value <==> p in w.props.Values && SatisfiesQuery(p, q)
    ensures (|| encoded.None?
             || !GetFromCache(w.cache, PropertiesKeyPrefix + encoded.value, PropertyList, 0 !in f.cache).Hit?)
            && 0 in f.store ==>
      r == Reply(w, Err(StoreError))
  {
    FilterMeansQueryEverywhere(q);
    GetAllProperties(w, BuildFilters(q), encoded, f)
  }

  lemma FilterMeansQueryEverywhere(q: Query)
    ensures forall p :: Matches(p, BuildFilters(q)) <==> SatisfiesQuery(p, q)
  {
    forall p ensures Matches(p, BuildFilters(q)) <==> SatisfiesQuery(p, q) {
      FilterMeansQuery(p, q);
    }
  }
}

=== FILE: models.dfy ===
/**
 * The documents the services read and write (models/property.go, models/user.go,
 * models/recommendation.go), reduced to the fields the modelled operations touch, and the
 * shape of the failures of the two external stores.
 */
module Models {
  import opened Wrappers
  import opened Text

  /** An ObjectID, held as the 24 lower-case hexadecimal digits that ObjectID.Hex prints. */
  type Id = s: string | IsCanonicalId(s) witness "000000000000000000000000"

  /** The zero ObjectID, which `omitempty` leaves out of an inserted document. */
  const ZeroId: Id := "000000000000000000000000"

  /** An instant from time.Now; the model only stores and compares it. */
  type Time = int

  datatype Property = Property(
    id: Id,
    title: string,
    propertyType: string,
    price: int,
    state: string,
    city: string,
    areaSqFt: int,
    bedrooms: int,
    bathrooms: int,
    amenities: seq<string>,
    furnished: string,
    listedBy: string,
    tags: seq<string>,
    colorTheme: string,
    isVerified: bool,
    listingType: string,
    createdBy: Id,
    createdAt: Time)

  /** A Property with every field at its Go zero value except the three given. */
  function NewProperty(id: Id, owner: Id, now: Time): Property {
    Property(id, "", "", 0, "", "", 0, 0, 0, [], "", "", [], "", false, "", owner, now)
  }

  datatype Recommendation = Recommendation(propertyId: Id, recommendedBy: Id, recommendedAt: Time)

  /** A user document; its `_id` is the key under which the users collection holds it. */
  datatype User = User(
    name: string,
    email: string,
    password: string,
    createdAt: Time,
    favorites: set<Id>,
    received: seq<Recommendation>)

  /** The properties collection keyed by `_id`; every document carries its own key. */
  predicate PropertiesWellFormed(props: map<Id, Property>) {
    forall k :: k in props ==> props[k].id == k
  }

  /**
   * Which calls of one operation fail. The i-th call the operation makes to the key-value
   * cache fails when i is in `cache`; the i-th call to the document store fails when i is
   * in `store`. Each operation documents the order of its calls.
   */
  datatype Outages = Outages(cache: set<nat>, store: set<nat>)

  const NoOutages := Outages({}, {})

  /** The new state of the stores an operation touched, and what it returned. */
  datatype Reply<S, T> = Reply(state: S, result: Result<T>)

  /** Text of the driver's errors that the services pass through unchanged. */
  const StoreError := "document store call failed"
  const NoDocuments := "mongo: no documents in result"
  const DuplicateKey := "E11000 duplicate key error"
}

=== FILE: properties.dfy ===
/**
 * The property operations of database/db.property.go over an abstract properties
 * collection and the cache: read-through lookups, and writes that touch the store first
 * and then invalidate.
 */
module PropertyService {
  import opened Wrappers
  import opened Text
  import opened Models
  import opened Cache

  /** The two stores the property operations touch. */
  datatype World = World(cache: Cache.Store, props: map<Id, Property>)

  const InvalidPropertyId := "invalid property ID format"
  const InvalidUserId := "invalid user ID format"
  const UpdateDenied := "property not found or you don't have permission to update it"
  const DeleteDenied := "property not found or you don't have permission to delete it"

  // ---------------------------------------------------------------------------
  // Query filters (the bson.M that handlers/property/list.go builds)

  /** One filter entry: field equality with a string or an integer, or a {$gte, $lte} range. */
  datatype Cond = EqStr(s: string) | EqInt(n: int) | Range(gte: Option<int>, lte: Option<int>)

  /** The filterable fields of a property document. */
  datatype Field = TypeField | City | State | Furnished | Price | Bedrooms | Bathrooms

  /** The BSON name of a field, which is also the query parameter that filters on it (but for price). */
  function FieldName(field: Field): string {
    match field
    case TypeField => "type"
    case City => "city"
    case State => "state"
    case Furnished => "furnished"
    case Price => "price"
    case Bedrooms => "bedrooms"
    case Bathrooms => "bathrooms"
  }

  type Filter = map<Field, Cond>

  datatype Value = VStr(s: string) | VInt(n: int)

  /** The stored value of a filterable field. */
  function FieldValue(p: Property, field: Field): Value {
    match field
    case TypeField => VStr(p.propertyType)
    case City => VStr(p.city)
    case State => VStr(p.state)
    case Furnished => VStr(p.furnished)
    case Price => VInt(p.price)
    case Bedrooms => VInt(p.bedrooms)
    case Bathrooms => VInt(p.bathrooms)
  }

  predicate Satisfies(v: Value, c: Cond) {
    match c
    case EqStr(s) => v == VStr(s)
    case EqInt(n) => v == VInt(n)
    case Range(lo, hi) =>
      && v.VInt?
      && (lo.Some? ==> lo.value <= v.n)
      && (hi.Some? ==> v.n <= hi.value)
  }

  /** A document matches a filter when it satisfies every entry. */
  predicate Matches(p: Property, f: Filter) {
    forall field :: field in f ==> Satisfies(FieldValue(p, field), f[field])
  }

  /** collection.Find(filter) followed by cursor.All, as a set of documents. */
  function Query(props: map<Id, Property>, f: Filter): (r: set<Property>)
    ensures forall p :: p in r <==> p in props.Values && Matches(p, f)
  {
    set p | p in props.Values && Matches(p, f)
  }

  /** The documents owned by one user (filter {createdBy: owner}). */
  function OwnedBy(props: map<Id, Property>, owner: Id): (r: set<Property>)
    ensures forall p :: p in r <==> p in props.Values && p.createdBy == owner
  {
    set p | p in props.Values && p.createdBy == owner
  }

  // ---------------------------------------------------------------------------
  // Reads

  /**
   * The read-through body of GetPropertyByID under a given cache key. Cache call 0 is the
   * GET and cache call 1 the SET; store call 0 is the FindOne.
   */
  function ReadProperty(w: World, key: string, propertyId: string, f: Outages): (r: Reply<World, Property>)
    ensures r.state.props == w.props
    ensures r.result.Err? ==> r.state == w
    ensures r.state.cache == w.cache
         || (r.result.Ok? && r.state.cache == w.cache[key := Entry(Encode(PropertyDoc(r.result.value)), MediumTerm)])
  {
    match GetFromCache(w.cache, key, OneProperty, 0 !in f.cache)
    case Hit(d) => Reply(w, Ok(d.property))
    case _ =>
      match ParseObjectId(propertyId)
      case None => Reply(w, Err(InvalidPropertyId))
      case Some(oid) =>
        if 0 in f.store then Reply(w, Err(StoreError))
        else if oid !in w.props then Reply(w, Err(NoDocuments))
        else
          var p := w.props[oid];
          var c := SetInCache(w.cache, key, PropertyDoc(p), MediumTerm, 1 !in f.cache).cache;
          Reply(w.(cache := c), Ok(p))
  }

  /** The property the cache holds under `key`, when the cache is reachable and it decodes. */
  function CachedProperty(c: Cache.Store, key: string): Option<Property> {
    if key in c && c[key].payload.Json? && c[key].payload.doc.PropertyDoc? then
      Some(c[key].payload.doc.property)
    else None
  }

  /**
   * GetPropertyByID: the cache under `property:<text as given>` first, then the id check,
   * then the store; a store hit is cached with the medium expiry.
   */
  function GetPropertyById(w: World, propertyId: string, f: Outages): (r: Reply<World, Property>)
    ensures r.state.props == w.props
    ensures 0 !in f.cache && CachedProperty(w.cache, PropertyKey(propertyId)).Some? ==>
      r == Reply(w, Ok(CachedProperty(w.cache, PropertyKey(propertyId)).value))
    ensures (0 in f.cache || CachedProperty(w.cache, PropertyKey(propertyId)).None?) && !ValidHex(propertyId) ==>
      r == Reply(w, Err(InvalidPropertyId))
    ensures (0 in f.cache || CachedProperty(w.cache, PropertyKey(propertyId)).None?) && ValidHex(propertyId) ==>
      var oid := ParseObjectId(propertyId).value;
      && (0 !in f.store && oid in w.props ==> r.result == Ok(w.props[oid]))
      && (0 !in f.store && oid in w.props && 1 !in f.cache ==>
           CachedProperty(r.state.cache, PropertyKey(propertyId)) == Some(w.props[oid]))
      && (0 in f.store || oid !in w.props ==> r.state == w && r.result.Err?)
  {
    ReadProperty(w, PropertyKey(propertyId), propertyId, f)
  }

  /** On a hit the store is never consulted: the reply does not depend on the collection. */
  lemma HitIgnoresStore(w: World, props': map<Id, Property>, propertyId: string, f: Outages)
    requires 0 !in f.cache && CachedProperty(w.cache, PropertyKey(propertyId)).Some?
    ensures GetPropertyById(w.(props := props'), propertyId, f).result == GetPropertyById(w, propertyId, f).result
  {
  }

  /** GetAllProperties: cache call 0 GET and 1 SET under `properties:<encoded filter>`; store call 0 Find. */
  function GetAllProperties(w: World, filters: Filter, encoded: Option<string>, f: Outages): (r: Reply<World, set<Property>>)
    ensures r.state.props == w.props
    ensures r.result.Err? ==> r.state == w
    ensures encoded.None? ==> r.state.cache == w.cache
    ensures encoded.None? && 0 !in f.store ==> r.result == Ok(Query(w.props, filters))
    ensures encoded.None? && 0 in f.store ==> r == Reply(w, Err(StoreError))
    ensures encoded.Some? ==>
      var key := PropertiesKeyPrefix + encoded.value;
      && (forall k :: k != key ==> (k in r.state.cache <==> k in w.cache))
      && (GetFromCache(w.cache, key, PropertyList, 0 !in f.cache).Hit? ==>
            r == Reply(w, Ok(GetFromCache(w.cache, key, PropertyList, true).doc.properties)))
      && (!GetFromCache(w.cache, key, PropertyList, 0 !in f.cache).Hit? && 0 in f.store ==>
            r == Reply(w, Err(StoreError)))
      && (!GetFromCache(w.cache, key, PropertyList, 0 !in f.cache).Hit? && 0 !in f.store ==>
            && r.result == Ok(Query(w.props, filters))
            && (1 !in f.cache ==> && GetFromCache(r.state.cache, key, PropertyList, true) == Hit(ListDoc(Query(w.props, filters)))
                                  && r.state.cache[key].ttl == ShortTerm))
  {
    var lookup := if encoded.Some? then GetFromCache(w.cache, PropertiesKeyPrefix + encoded.value, PropertyList, 0 !in f.cache) else Miss;
    if lookup.Hit? then Reply(w, Ok(lookup.doc.properties))
    else if 0 in f.store then Reply(w, Err(StoreError))
    else
      var found := Query(w.props, filters);
      if encoded.Some? then
        var c := SetInCache(w.cache, PropertiesKeyPrefix + encoded.value, ListDoc(found), ShortTerm, 1 !in f.cache).cache;
        Reply(w.(cache := c), Ok(found))
      else Reply(w, Ok(found))
  }

  function UserListKey(userId: string): string {
    PropertiesKeyPrefix + "user:" + userId
  }

  /**
   * GetAllPropertiesByUser: cache call 0 GET and 1 SET under `properties:user:<id>`, checked
   * before the id; store call 0 Find.
   */
  function GetAllPropertiesByUser(w: World, userId: string, f: Outages): (r: Reply<World, set<Property>>)
    ensures r.state.props == w.props
    ensures r.result.Err? ==> r.state == w
    ensures forall k :: k != UserListKey(userId) ==> (k in r.state.cache <==> k in w.cache)
    ensures GetFromCache(w.cache, UserListKey(userId), PropertyList, 0 !in f.cache).Hit? ==>
      r == Reply(w, Ok(GetFromCache(w.cache, UserListKey(userId), PropertyList, true).doc.properties))
    ensures !GetFromCache(w.cache, UserListKey(userId), PropertyList, 0 !in f.cache).Hit? ==>
      && (!ValidHex(userId) ==> r == Reply(w, Err(InvalidUserId)))
      && (ValidHex(userId) && 0 in f.store ==> r == Reply(w, Err(StoreError)))
      && (ValidHex(userId) && 0 !in f.store ==> r.result == Ok(OwnedBy(w.props, ParseObjectId(userId).value)))
      && (ValidHex(userId) && 0 !in f.store && 1 !in f.cache ==>
            && GetFromCache(r.state.cache, UserListKey(userId), PropertyList, true)
                 == Hit(ListDoc(OwnedBy(w.props, ParseObjectId(userId).value)))
            && r.state.cache[UserListKey(userId)].ttl == ShortTerm)
  {
    var key := UserListKey(userId);
    match GetFromCache(w.cache, key, PropertyList, 0 !in f.cache)
    case Hit(d) => Reply(w, Ok(d.properties))
    case _ =>
      match ParseObjectId(userId)
      case None => Reply(w, Err(InvalidUserId))
      case Some(owner) =>
        if 0 in f.store then Reply(w, Err(StoreError))
        else
          var found := OwnedBy(w.props, owner);
          var c := SetInCache(w.cache, key, ListDoc(found), ShortTerm, 1 !in f.cache).cache;
          Reply(w.(cache := c), Ok(found))
  }

  /** The per-owner list key lies inside every `properties:*` sweep. */
  lemma UserListKeySwept(userId: string)
    ensures HasPrefix(UserListKey(userId), PropertiesKeyPrefix)
  {
    assert UserListKey(userId)[..|PropertiesKeyPrefix|] == PropertiesKeyPrefix;
  }

  // ---------------------------------------------------------------------------
  // Writes

  /** The `_id` an insert gives a document: its own id, or the driver's fresh one when zero. */
  function InsertedId(p: Property, freshId: Id): Id {
    if p.id == ZeroId then freshId else p.id
  }

  /**
   * CreateAProperty: store call 0 is the InsertOne, failing also on a duplicate `_id`; on
   * success cache calls 0 and 1 sweep `properties:*`. The caller's value is returned with its
   * CreatedAt overwritten and its ID as the caller left it.
   */
  function CreateAProperty(w: World, p: Property, now: Time, freshId: Id, f: Outages): (r: Reply<World, Property>)
    ensures r.result.Err? ==> r.state == w
    ensures r.result.Err? <==> 0 in f.store || InsertedId(p, freshId) in w.props
    ensures r.result.Ok? ==>
      && r.result.value == p.(createdAt := now)
      && r.state.props == w.props[InsertedId(p, freshId) := p.(createdAt := now, id := InsertedId(p, freshId))]
      && (forall k :: k in r.state.cache ==> k in w.cache && r.state.cache[k] == w.cache[k])
      && (forall k :: k in w.cache && !HasPrefix(k, PropertiesKeyPrefix) ==> k in r.state.cache)
      && (0 !in f.cache && 1 !in f.cache ==> forall k :: k in r.state.cache ==> !HasPrefix(k, PropertiesKeyPrefix))
  {
    var id := InsertedId(p, freshId);
    if 0 in f.store then Reply(w, Err(StoreError))
    else if id in w.props then Reply(w, Err(DuplicateKey))
    else
      var created := p.(createdAt := now);
      var props := w.props[id := created.(id := id)];
      var c := DeleteByPattern(w.cache, PropertiesKeyPrefix, 0 !in f.cache, 1 !in f.cache).cache;
      Reply(World(c, props), Ok(created))
  }

  /** Creating keeps every stored document under its own key. */
  lemma CreatePreservesWellFormed(w: World, p: Property, now: Time, freshId: Id, f: Outages)
    requires PropertiesWellFormed(w.props)
    ensures PropertiesWellFormed(CreateAProperty(w, p, now, freshId, f).state.props)
  {
  }

  /**
   * The `$set` document of an update: the request body, one optional value per field of the
   * document. The owner and the creation time are fields like any other.
   */
  datatype Patch = Patch(
    title: Option<string>,
    propertyType: Option<string>,
    price: Option<int>,
    state: Option<string>,
    city: Option<string>,
    areaSqFt: Option<int>,
    bedrooms: Option<int>,
    bathrooms: Option<int>,
    amenities: Option<seq<string>>,
    furnished: Option<string>,
    listedBy: Option<string>,
    tags: Option<seq<string>>,
    colorTheme: Option<string>,
    isVerified: Option<bool>,
    listingType: Option<string>,
    createdBy: Option<Id>,
    createdAt: Option<Time>)

  /** The empty request body `{}`. */
  const EmptyPatch := Patch(None, None, None, None, None, None, None, None, None, None, None, None, None, None, None, None, None)

  function ApplyPatch(p: Property, u: Patch): Property {
    p.(title := u.title.GetOr(p.title),
       propertyType := u.propertyType.GetOr(p.propertyType),
       price := u.price.GetOr(p.price),
       state := u.state.GetOr(p.state),
       city := u.city.GetOr(p.city),
       areaSqFt := u.areaSqFt.GetOr(p.areaSqFt),
       bedrooms := u.bedrooms.GetOr(p.bedrooms),
       bathrooms := u.bathrooms.GetOr(p.bathrooms),
       amenities := u.amenities.GetOr(p.amenities),
       furnished := u.furnished.GetOr(p.furnished),
       listedBy := u.listedBy.GetOr(p.listedBy),
       tags := u.tags.GetOr(p.tags),
       colorTheme := u.colorTheme.GetOr(p.colorTheme),
       isVerified := u.isVerified.GetOr(p.isVerified),
       listingType := u.listingType.GetOr(p.listingType),
       createdBy := u.createdBy.GetOr(p.createdBy),
       createdAt := u.createdAt.GetOr(p.createdAt))
  }

  /**
   * `$set` is idempotent and never changes the `_id`; it keeps the owner and the creation
   * time unless the body names them, and the empty body changes nothing.
   */
  lemma ApplyPatchLaws(p: Property, u: Patch)
    ensures ApplyPatch(ApplyPatch(p, u), u) == ApplyPatch(p, u)
    ensures ApplyPatch(p, u).id == p.id
    ensures u.createdBy.None? ==> ApplyPatch(p, u).createdBy == p.createdBy
    ensures u.createdBy.Some? ==> ApplyPatch(p, u).createdBy == u.createdBy.value
    ensures u.createdAt.None? ==> ApplyPatch(p, u).createdAt == p.createdAt
    ensures u.createdAt.Some? ==> ApplyPatch(p, u).createdAt == u.createdAt.value
    ensures ApplyPatch(p, EmptyPatch) == p
  {
  }

  /** The compound filter {_id, createdBy} matches a document. */
  predicate OwnedMatch(props: map<Id, Property>, propertyId: Id, owner: Id) {
    propertyId in props && props[propertyId].createdBy == owner
  }

  /**
   * UpdateAProperty: the caller id check, then store calls 0 CountDocuments, 1 UpdateOne and
   * 2 FindOne, then ClearPropertyCache with the canonical id (cache calls 0 to 2).
   */
  function UpdateAProperty(w: World, u: Patch, propertyId: Id, userId: string, f: Outages): (r: Reply<World, Property>)
    ensures !ValidHex(userId) ==> r == Reply(w, Err(InvalidUserId))
    ensures ValidHex(userId) && 0 in f.store ==> r == Reply(w, Err(StoreError))
    ensures ValidHex(userId) && !(0 in f.store) && !OwnedMatch(w.props, propertyId, ParseObjectId(userId).value) ==>
      r == Reply(w, Err(UpdateDenied))
    ensures ValidHex(userId) ==>
      (r.result.Ok? <==> 0 !in f.store && 1 !in f.store && 2 !in f.store
                         && OwnedMatch(w.props, propertyId, ParseObjectId(userId).value))
    ensures ValidHex(userId) && 0 !in f.store && OwnedMatch(w.props, propertyId, ParseObjectId(userId).value) && 1 in f.store ==>
      r == Reply(w, Err(StoreError))
    ensures r.result.Ok? ==>
      && OwnedMatch(w.props, propertyId, ParseObjectId(userId).value)
      && r.result.value == ApplyPatch(w.props[propertyId], u)
      && r.state.props == w.props[propertyId := ApplyPatch(w.props[propertyId], u)]
      && r.state.cache == ClearPropertyCache(w.cache, propertyId, f.cache)
    ensures r.result.Err? ==> r.state.cache == w.cache
    ensures r.result.Err? && r.state != w ==> 2 in f.store
  {
    match ParseObjectId(userId)
    case None => Reply(w, Err(InvalidUserId))
    case Some(owner) =>
      if 0 in f.store then Reply(w, Err(StoreError))
      else if !OwnedMatch(w.props, propertyId, owner) then Reply(w, Err(UpdateDenied))
      else if 1 in f.store then Reply(w, Err(StoreError))
      else
        var updated := ApplyPatch(w.props[propertyId], u);
        var props := w.props[propertyId := updated];
        if 2 in f.store then Reply(w.(props := props), Err(StoreError))
        else Reply(World(ClearPropertyCache(w.cache, propertyId, f.cache), props), Ok(updated))
  }

  /**
   * When the re-read after a successful UpdateOne fails, the caller sees an error although
   * the store changed, and nothing is invalidated.
   */
  lemma UpdateErrorAfterWrite(w: World, u: Patch, propertyId: Id, userId: string)
    requires ValidHex(userId) && OwnedMatch(w.props, propertyId, ParseObjectId(userId).value)
    ensures var r := UpdateAProperty(w, u, propertyId, userId, Outages({}, {2}));
      r.result.Err? && r.state.cache == w.cache
      && r.state.props[propertyId] == ApplyPatch(w.props[propertyId], u)
  {
  }

  /**
   * The deletion body of DeleteAProperty with the key-id ClearPropertyCache is given. Store
   * call 0 is the DeleteOne; cache calls 0 to 2 are ClearPropertyCache's.
   */
  function DeleteWithKey(w: World, propertyId: string, userId: string, keyId: string, f: Outages): (r: Reply<World, ()>)
    requires ValidHex(propertyId) && ValidHex(userId)
    ensures var pid := ParseObjectId(propertyId).value;
      && (r.result.Ok? <==> 0 !in f.store && OwnedMatch(w.props, pid, ParseObjectId(userId).value))
      && (r.result.Ok? ==> r.state == World(ClearPropertyCache(w.cache, keyId, f.cache), w.props - {pid}))
      && (r.result.Err? ==> r.state == w)
  {
    var pid := ParseObjectId(propertyId).value;
    var owner := ParseObjectId(userId).value;
    if 0 in f.store then Reply(w, Err(StoreError))
    else if !OwnedMatch(w.props, pid, owner) then Reply(w, Err(DeleteDenied))
    else Reply(World(ClearPropertyCache(w.cache, keyId, f.cache), w.props - {pid}), Ok(()))
  }

  /**
   * DeleteAProperty: the property id is checked before the user id; the cache is cleared
   * under the property id text as given.
   */
  function DeleteAProperty(w: World, propertyId: string, userId: string, f: Outages): (r: Reply<World, ()>)
    ensures !ValidHex(propertyId) ==> r == Reply(w, Err(InvalidPropertyId))
    ensures ValidHex(propertyId) && !ValidHex(userId) ==> r == Reply(w, Err(InvalidUserId))
    ensures (&& ValidHex(propertyId) && ValidHex(userId) && 0 !in f.store
             && !OwnedMatch(w.props, ParseObjectId(propertyId).value, ParseObjectId(userId).value)) ==>
      r == Reply(w, Err(DeleteDenied))
    ensures ValidHex(propertyId) && ValidHex(userId) && 0 in f.store ==> r == Reply(w, Err(StoreError))
    ensures ValidHex(propertyId) && ValidHex(userId) ==>
      (r.result.Ok? <==> 0 !in f.store && OwnedMatch(w.props, ParseObjectId(propertyId).value, ParseObjectId(userId).value))
    ensures r.result.Ok? ==>
      && ValidHex(propertyId) && ValidHex(userId)
      && ParseObjectId(propertyId).value !in r.state.props
      && r.state.props == w.props - {ParseObjectId(propertyId).value}
      && r.state.cache == ClearPropertyCache(w.cache, propertyId, f.cache)
    ensures r.result.Err? ==> r.state == w
  {
    if !ValidHex(propertyId) then Reply(w, Err(InvalidPropertyId))
    else if !ValidHex(userId) then Reply(w, Err(InvalidUserId))
    else DeleteWithKey(w, propertyId, userId, propertyId, f)
  }

  /**
   * A caller cannot tell a property owned by someone else from one that does not exist:
   * both updates and both deletes fail with the same error and leave both worlds as they were.
   */
  lemma NonOwnerIndistinguishableFromMissing(w1: World, w2: World, propertyId: Id, userId: string, u: Patch, f: Outages)
    requires ValidHex(userId) && 0 !in f.store
    requires propertyId !in w1.props
    requires propertyId in w2.props && w2.props[propertyId].createdBy != ParseObjectId(userId).value
    ensures
      && UpdateAProperty(w1, u, propertyId, userId, f).result == UpdateAProperty(w2, u, propertyId, userId, f).result
      && UpdateAProperty(w1, u, propertyId, userId, f).state == w1
      && UpdateAProperty(w2, u, propertyId, userId, f).state == w2
    ensures DeleteAProperty(w1, propertyId, userId, f).result == DeleteAProperty(w2, propertyId, userId, f).result
    ensures DeleteAProperty(w1, propertyId, userId, f).state == w1
    ensures DeleteAProperty(w2, propertyId, userId, f).state == w2
  {
    ParseCanonicalId(propertyId);
  }

  /**
   * An update whose body names another owner hands the document over: afterwards the
   * former owner's updates and deletes are denied like those of any stranger.
   */
  lemma OwnerChangeLocksOut(w: World, u: Patch, propertyId: Id, userId: string, newOwner: Id,
                            u2: Patch, f: Outages)
    requires UpdateAProperty(w, u, propertyId, userId, NoOutages).result.Ok?
    requires u.createdBy == Some(newOwner) && newOwner != ParseObjectId(userId).value
    requires 0 !in f.store
    ensures var w' := UpdateAProperty(w, u, propertyId, userId, NoOutages).state;
      && UpdateAProperty(w', u2, propertyId, userId, f) == Reply(w', Err(UpdateDenied))
      && DeleteAProperty(w', propertyId, userId, f) == Reply(w', Err(DeleteDenied))
  {
    var w' := UpdateAProperty(w, u, propertyId, userId, NoOutages).state;
    assert w'.props[propertyId].createdBy == newOwner;
    ParseCanonicalId(propertyId);
  }

  // ---------------------------------------------------------------------------
  // Cache keys under different spellings of one id

  /**
   * A key that names the property rather than the text of the request: the printed id when
   * the text is a valid id, the text itself otherwise.
   */
  function CanonicalPropertyKey(propertyId: string): (k: string)
    ensures ValidHex(propertyId) ==> k == PropertyKey(ParseObjectId(propertyId).value)
  {
    match ParseObjectId(propertyId)
    case Some(oid) => PropertyKey(oid)
    case None => PropertyKey(propertyId)
  }

  /** GetPropertyByID keyed on the property rather than on the spelling of its id. */
  function GetPropertyByIdCanonical(w: World, propertyId: string, f: Outages): (r: Reply<World, Property>)
    ensures r.state.props == w.props
    ensures r.result.Err? ==> r.state == w
    ensures 0 !in f.cache && CachedProperty(w.cache, CanonicalPropertyKey(propertyId)).Some? ==>
      r == Reply(w, Ok(CachedProperty(w.cache, CanonicalPropertyKey(propertyId)).value))
    ensures (&& ValidHex(propertyId) && 0 !in f.store && CachedProperty(w.cache, CanonicalPropertyKey(propertyId)).None?
             && ParseObjectId(propertyId).value in w.props) ==>
      r.result == Ok(w.props[ParseObjectId(propertyId).value])
  {
    ReadProperty(w, CanonicalPropertyKey(propertyId), propertyId, f)
  }

  /** DeleteAProperty clearing the cache under the printed id. */
  function DeleteAPropertyCanonical(w: World, propertyId: string, userId: string, f: Outages): (r: Reply<World, ()>)
    ensures !ValidHex(propertyId) ==> r == Reply(w, Err(InvalidPropertyId))
    ensures ValidHex(propertyId) && !ValidHex(userId) ==> r == Reply(w, Err(InvalidUserId))
    ensures (&& ValidHex(propertyId) && ValidHex(userId) && 0 !in f.store
             && !OwnedMatch(w.props, ParseObjectId(propertyId).value, ParseObjectId(userId).value)) ==>
      r == Reply(w, Err(DeleteDenied))
    ensures ValidHex(propertyId) && ValidHex(userId) && 0 in f.store ==> r == Reply(w, Err(StoreError))
    ensures ValidHex(propertyId) && ValidHex(userId) ==>
      (r.result.Ok? <==> 0 !in f.store && OwnedMatch(w.props, ParseObjectId(propertyId).value, ParseObjectId(userId).value))
    ensures r.result.Ok? ==>
      && ValidHex(propertyId)
      && r.state.props == w.props - {ParseObjectId(propertyId).value}
      && r.state.cache == ClearPropertyCache(w.cache, ParseObjectId(propertyId).value, f.cache)
    ensures r.result.Err? ==> r.state == w
  {
    if !ValidHex(propertyId) then Reply(w, Err(InvalidPropertyId))
    else if !ValidHex(userId) then Reply(w, Err(InvalidUserId))
    else DeleteWithKey(w, propertyId, userId, ParseObjectId(propertyId).value, f)
  }

  /**
   * Freshness after an update: once UpdateAProperty succeeds with the cache reachable, every
   * spelling of the id misses the canonical cache and reads the updated document.
   */
  lemma FreshAfterUpdateCanonical(w: World, u: Patch, propertyId: Id, userId: string, spelling: string, f: Outages)
    requires UpdateAProperty(w, u, propertyId, userId, Outages({}, f.store)).result.Ok?
    requires ParseObjectId(spelling) == Some(propertyId)
    requires f.store == {}
    ensures var w' := UpdateAProperty(w, u, propertyId, userId, Outages({}, f.store)).state;
      GetPropertyByIdCanonical(w', spelling, f).result == Ok(w'.props[propertyId])
  {
    var w' := UpdateAProperty(w, u, propertyId, userId, Outages({}, f.store)).state;
    assert CanonicalPropertyKey(spelling) == PropertyKey(propertyId);
    assert CachedProperty(w'.cache, CanonicalPropertyKey(spelling)).None?;
  }

  /**
   * Freshness after a delete: once the canonical delete succeeds with the cache reachable,
   * no spelling of the id is answered from the cache, and the read fails.
   */
  lemma FreshAfterDeleteCanonical(w: World, propertyId: string, userId: string, spelling: string)
    requires DeleteAPropertyCanonical(w, propertyId, userId, NoOutages).result.Ok?
    requires ParseObjectId(spelling) == ParseObjectId(propertyId)
    ensures var w' := DeleteAPropertyCanonical(w, propertyId, userId, NoOutages).state;
      GetPropertyByIdCanonical(w', spelling, NoOutages).result.Err?
  {
    var w' := DeleteAPropertyCanonical(w, propertyId, userId, NoOutages).state;
    var oid := ParseObjectId(propertyId).value;
    assert CanonicalPropertyKey(spelling) == PropertyKey(oid);
    assert PropertyKey(oid) !in w'.cache;
  }

  /**
   * Staleness under the keys as written: a read through a non-canonical spelling of an id
   * caches `property:<spelling>`; the owner's update clears only `property:<printed id>`;
   * the next read through the same spelling returns the document as it was before.
   */
  lemma StaleAfterUpdate(w: World, spelling: string, id: Id, owner: Id, u: Patch)
    requires ParseObjectId(spelling) == Some(id) && spelling != id
    requires id in w.props && w.props[id].createdBy == owner
    requires PropertyKey(spelling) !in w.cache
    ensures
      var before := w.props[id];
      var w1 := GetPropertyById(w, spelling, NoOutages).state;
      var w2 := UpdateAProperty(w1, u, id, owner, NoOutages);
      && w2.result.Ok?
      && w2.state.props[id] == ApplyPatch(before, u)
      && GetPropertyById(w2.state, spelling, NoOutages).result == Ok(before)
  {
    var before := w.props[id];
    var w1 := GetPropertyById(w, spelling, NoOutages).state;
    assert w1.props == w.props;
    assert CachedProperty(w1.cache, PropertyKey(spelling)) == Some(before);
    ParseCanonicalId(owner);
    var w2 := UpdateAProperty(w1, u, id, owner, NoOutages);
    assert OwnedMatch(w1.props, id, owner);
    assert PropertyKey(spelling) != PropertyKey(id) by {
      assert PropertyKey(spelling)[|PropertyKeyPrefix|..] == spelling;
      assert PropertyKey(id)[|PropertyKeyPrefix|..] == id;
    }
    PropertyKeyNotSwept(spelling);
    assert PropertyKey(spelling) in w2.state.cache;
    assert CachedProperty(w2.state.cache, PropertyKey(spelling)) == Some(before);
  }

  // A concrete input for the stale read: the upper-case spelling of a stored id.

  const SampleId: Id := "6835c855bdcc74cfb350e6c4"
  const SampleSpelling := "6835C855BDCC74CFB350E6C4"

  /** The upper-case spelling of an id is a valid spelling of it. */
  lemma SampleSpellingParses()
    ensures ValidHex(SampleSpelling) && ParseObjectId(SampleSpelling) == Some(SampleId)
  {
    assert forall i :: 0 <= i < 24 ==> LowerChar(SampleSpelling[i]) == SampleId[i];
    SpellingOf(SampleSpelling, SampleId);
  }

  /** ... and not the printed one, so StaleAfterUpdate applies to it. */
  lemma SampleSpellingNotCanonical()
    ensures SampleSpelling != SampleId
  {
    assert SampleSpelling[4] == 'C' && IsLowerHexDigit(SampleId[4]);
  }

  /** Any valid spelling that lower-cases to an id parses to it. */
  lemma SpellingOf(s: string, id: Id)
    requires ValidHex(s) && forall i :: 0 <= i < |s| ==> LowerChar(s[i]) == id[i]
    ensures ParseObjectId(s) == Some(id)
  {
    assert ToLower(s) == id;
  }
}

=== FILE: text.dfy ===
/**
 * String helpers from Go's `strings` and `strconv` packages that the importers and the
 * services rely on, and the shape of a MongoDB ObjectID in hexadecimal.
 */
module Text {
  import opened Wrappers

  // ---------------------------------------------------------------------------
  // strings.TrimSpace

  /** unicode.IsSpace: the ASCII white space characters plus the Unicode space separators. */
  predicate IsSpace(c: char) {
    || c == ' ' || c == '\t' || c == '\n' || c == '\U{B}' || c == '\U{C}' || c == '\r'
    || c == '\U{85}' || c == '\U{A0}' || c == '\U{1680}'
    || ('\U{2000}' <= c <= '\U{200A}')
    || c == '\U{2028}' || c == '\U{2029}' || c == '\U{202F}' || c == '\U{205F}' || c == '\U{3000}'
  }

  predicate AllSpace(s: string) {
    forall i :: 0 <= i < |s| ==> IsSpace(s[i])
  }

  /** The index of the first non-space character at or after `i`, or |s| when there is none. */
  function SpaceEnd(s: string, i: nat): (k: nat)
    requires i <= |s|
    ensures i <= k <= |s|
    ensures forall j :: i <= j < k ==> IsSpace(s[j])
    ensures k == |s| || !IsSpace(s[k])
    decreases |s| - i
  {
    if i < |s| && IsSpace(s[i]) then SpaceEnd(s, i + 1) else i
  }

  /** The index just past the last non-space character before `j`, or 0 when there is none. */
  function SpaceStart(s: string, j: nat): (k: nat)
    requires j <= |s|
    ensures k <= j
    ensures forall i :: k <= i < j ==> IsSpace(s[i])
    ensures k == 0 || !IsSpace(s[k - 1])
  {
    if j > 0 && IsSpace(s[j - 1]) then SpaceStart(s, j - 1) else j
  }

  /** The number of white space characters that open `s`. */
  function LeadingSpace(s: string): (n: nat)
    ensures n <= |s|
  {
    SpaceEnd(s, 0)
  }

  /**
   * strings.TrimSpace: the result sits at offset LeadingSpace(s) of `s`, and everything of
   * `s` before and after it is white space.
   */
  function TrimSpace(s: string): (r: string)
    ensures LeadingSpace(s) + |r| <= |s| && r == s[LeadingSpace(s)..LeadingSpace(s) + |r|]
    ensures forall i :: 0 <= i < LeadingSpace(s) ==> IsSpace(s[i])
    ensures forall i :: LeadingSpace(s) + |r| <= i < |s| ==> IsSpace(s[i])
    ensures r == [] || (!IsSpace(r[0]) && !IsSpace(r[|r| - 1]))
  {
    var a := SpaceEnd(s, 0);
    var b := SpaceStart(s, |s|);
    if a == |s| then []
    else
      assert a < b;
      s[a..b]
  }

  /** Trimming can only produce the empty string from an all-white-space input. */
  lemma TrimSpaceEmpty(s: string)
    ensures TrimSpace(s) == [] <==> AllSpace(s)
  {
    var r := TrimSpace(s);
    if r != [] {
      assert r[0] == s[LeadingSpace(s)];
    }
  }

  /** Trimming twice is trimming once. */
  lemma TrimSpaceIdempotent(s: string)
    ensures TrimSpace(TrimSpace(s)) == TrimSpace(s)
  {
    var r := TrimSpace(s);
    if r != [] {
      assert SpaceEnd(r, 0) == 0 && SpaceStart(r, |r|) == |r|;
      assert r[0..|r|] == r;
    }
  }

  // ---------------------------------------------------------------------------
  // strings.ToLower: the ASCII letters, and the two non-ASCII letters whose lower case is ASCII

  /**
   * unicode.ToLower where it can produce an ASCII letter: A-Z, U+0130 (capital I with dot
   * above) to 'i' and U+212A (Kelvin sign) to 'k'. Other characters are kept as they are.
   */
  function LowerChar(c: char): (l: char)
    ensures 'a' <= l <= 'z' <==> 'a' <= c <= 'z' || 'A' <= c <= 'Z' || c == 0x130 as char || c == 0x212A as char
  {
    if 'A' <= c <= 'Z' then (c as int + 32) as char
    else if c == 0x130 as char then 'i'
    else if c == 0x212A as char then 'k'
    else c
  }

  function ToLower(s: string): (r: string)
    ensures |r| == |s|
    ensures forall i :: 0 <= i < |s| ==> r[i] == LowerChar(s[i])
  {
    if |s| == 0 then [] else [LowerChar(s[0])] + ToLower(s[1..])
  }

  // ---------------------------------------------------------------------------
  // strings.HasPrefix / strings.HasSuffix

  predicate HasPrefix(s: string, prefix: string) {
    |prefix| <= |s| && s[..|prefix|] == prefix
  }

  predicate HasSuffix(s: string, suffix: string) {
    |suffix| <= |s| && s[|s| - |suffix|..] == suffix
  }

  // ---------------------------------------------------------------------------
  // strings.Split with a one-character separator, and its inverse strings.Join

  function Join(parts: seq<string>, sep: char): string {
    if |parts| == 0 then []
    else if |parts| == 1 then parts[0]
    else parts[0] + [sep] + Join(parts[1..], sep)
  }

  /**
   * strings.Split(s, string(sep)): the pieces between separators, in order. Splitting the
   * empty string gives one empty piece, as in Go.
   */
  function Split(s: string, sep: char): (r: seq<string>)
    ensures |r| >= 1
    ensures forall i :: 0 <= i < |r| ==> sep !in r[i]
    ensures Join(r, sep) == s
    decreases |s|
  {
    if |s| == 0 then [[]]
    else
      var rest := Split(s[1..], sep);
      if s[0] == sep then
        assert Join([[]] + rest, sep) == [sep] + Join(rest, sep) by {
          assert ([[]] + rest)[1..] == rest;
        }
        [[]] + rest
      else
        var r := [[s[0]] + rest[0]] + rest[1..];
        assert Join(r, sep) == [s[0]] + Join(rest, sep) by {
          if |rest| > 1 { assert r[1..] == rest[1..]; }
        }
        r
  }

  /** The number of pieces is one more than the number of separators. */
  function Count(s: string, c: char): nat {
    if |s| == 0 then 0 else (if s[0] == c then 1 else 0) + Count(s[1..], c)
  }

  lemma {:induction false} SplitCount(s: string, sep: char)
    ensures |Split(s, sep)| == Count(s, sep) + 1
    decreases |s|
  {
    if |s| > 0 {
      SplitCount(s[1..], sep);
    }
  }

  // ---------------------------------------------------------------------------
  // strconv.ParseInt(s, 10, 64) and strconv.Atoi on a 64-bit platform

  const Int64Min: int := -0x8000_0000_0000_0000
  const Int64Max: int := 0x7FFF_FFFF_FFFF_FFFF

  predicate IsDigit(c: char) { '0' <= c <= '9' }

  predicate AllDigits(s: string) {
    forall i :: 0 <= i < |s| ==> IsDigit(s[i])
  }

  /** The value of a run of decimal digits, most significant first. */
  function DigitsValue(s: string): nat
    requires AllDigits(s)
  {
    if |s| == 0 then 0
    else DigitsValue(s[..|s| - 1]) * 10 + (s[|s| - 1] as int - '0' as int)
  }

  /**
   * strconv.ParseInt(s, 10, 64): an optional sign followed by at least one decimal digit,
   * rejected when the value does not fit in 64 bits. No white space, no underscores.
   */
  function ParseInt64(s: string): (r: Option<int>)
    ensures r.Some? ==> Int64Min <= r.value <= Int64Max
    ensures r.Some? ==> |s| > 0 && (IsDigit(s[0]) || s[0] == '+' || s[0] == '-')
    ensures r.Some? ==>
      var d := if s[0] == '+' || s[0] == '-' then s[1..] else s;
      && |d| > 0 && AllDigits(d)
      && r.value == (if s[0] == '-' then -(DigitsValue(d) as int) else DigitsValue(d))
    ensures |s| > 0 && AllDigits(s) && DigitsValue(s) <= Int64Max ==> r == Some(DigitsValue(s))
    ensures |s| > 1 && s[0] == '-' && AllDigits(s[1..]) && DigitsValue(s[1..]) <= -Int64Min ==> r == Some(-(DigitsValue(s[1..]) as int))
    ensures |s| > 1 && s[0] == '+' && AllDigits(s[1..]) && DigitsValue(s[1..]) <= Int64Max ==> r == Some(DigitsValue(s[1..]) as int)
  {
    if |s| == 0 then None
    else
      var digits := if s[0] == '+' || s[0] == '-' then s[1..] else s;
      if |digits| == 0 || !AllDigits(digits) then None
      else
        var n: int := if s[0] == '-' then 0 - DigitsValue(digits) as int else DigitsValue(digits);
        if Int64Min <= n <= Int64Max then Some(n) else None
  }

  /** strconv.Atoi: on a 64-bit platform the same as ParseInt(s, 10, 0) = ParseInt(s, 10, 64). */
  function Atoi(s: string): (r: Option<int>)
    ensures r.Some? ==> Int64Min <= r.value <= Int64Max && |s| > 0
    ensures r.Some? ==>
      var d := if s[0] == '+' || s[0] == '-' then s[1..] else s;
      && |d| > 0 && AllDigits(d)
      && r.value == (if s[0] == '-' then -(DigitsValue(d) as int) else DigitsValue(d))
    ensures |s| > 0 && AllDigits(s) && DigitsValue(s) <= Int64Max ==> r == Some(DigitsValue(s))
  {
    ParseInt64(s)
  }

  /** The decimal text of a natural number, as fmt's %d and strconv.Itoa write it. */
  function NatToString(n: nat): (r: string)
    ensures |r| > 0 && AllDigits(r)
    ensures |r| > 1 || n > 0 ==> r[0] != '0'
    ensures n == 0 ==> r == "0"
  {
    if n < 10 then [('0' as int + n) as char]
    else NatToString(n / 10) + [('0' as int + n % 10) as char]
  }

  /** strconv.FormatInt(n, 10). */
  function FormatInt(n: int): string {
    if n < 0 then "-" + NatToString(-n) else NatToString(n)
  }

  lemma {:induction false} DigitsOfNatToString(n: nat)
    ensures DigitsValue(NatToString(n)) == n
  {
    var s := NatToString(n);
    if n >= 10 {
      DigitsOfNatToString(n / 10);
      assert s[..|s| - 1] == NatToString(n / 10);
    }
  }

  /** Parsing what FormatInt printed gives the number back, for every 64-bit value. */
  lemma ParseFormatRoundTrip(n: int)
    requires Int64Min <= n <= Int64Max
    ensures ParseInt64(FormatInt(n)) == Some(n)
  {
    var s := FormatInt(n);
    if n < 0 {
      var d := NatToString(-n);
      DigitsOfNatToString(-n);
      assert s == "-" + d;
      assert s[0] == '-' && s[1..] == d;
      assert AllDigits(s[1..]) && |s[1..]| > 0;
      assert 0 - DigitsValue(s[1..]) as int == n;
    } else {
      DigitsOfNatToString(n);
      assert IsDigit(s[0]);
    }
  }

  // ---------------------------------------------------------------------------
  // primitive.ObjectIDFromHex and ObjectID.Hex

  predicate IsHexDigit(c: char) {
    IsDigit(c) || ('a' <= c <= 'f') || ('A' <= c <= 'F')
  }

  predicate IsLowerHexDigit(c: char) {
    IsDigit(c) || ('a' <= c <= 'f')
  }

  /** What ObjectIDFromHex accepts: exactly 24 hexadecimal digits of either case. */
  predicate ValidHex(s: string) {
    |s| == 24 && forall i :: 0 <= i < |s| ==> IsHexDigit(s[i])
  }

  /** What ObjectID.Hex prints: 24 lower-case hexadecimal digits. */
  predicate IsCanonicalId(s: string) {
    |s| == 24 && forall i :: 0 <= i < |s| ==> IsLowerHexDigit(s[i])
  }

  /**
   * ObjectIDFromHex followed by Hex: accepts exactly the valid spellings and yields the
   * lower-case spelling of the same twelve bytes.
   */
  function ParseObjectId(s: string): (r: Option<string>)
    ensures r.Some? <==> ValidHex(s)
    ensures r.Some? ==> IsCanonicalId(r.value) && |r.value| == |s|
    ensures r.Some? ==> forall i :: 0 <= i < |s| ==> r.value[i] == LowerChar(s[i])
  {
    if ValidHex(s) then Some(ToLower(s)) else None
  }

  /** A printed id parses back to itself. */
  lemma ParseCanonicalId(id: string)
    requires IsCanonicalId(id)
    ensures ParseObjectId(id) == Some(id)
  {
    assert ToLower(id) == id;
  }
}

=== FILE: users.dfy ===
/**
 * The user-document operations of database/db.user.go: signup by email, favorites as a
 * per-user set, and recommendations as a per-user append-only list, over abstract users
 * and properties collections. None of these touch the cache.
 */
module UserService {
  import opened Wrappers
  import opened Text
  import opened Models

  /** The two collections the user operations read and write. */
  datatype Db = Db(props: map<Id, Property>, users: map<Id, User>)

  const InvalidUserId := "invalid user ID format"
  const InvalidPropertyId := "invalid property ID format"
  const InvalidRecommenderId := "invalid recommender user ID format"
  const InvalidRecipientId := "invalid recipient user ID format"
  const UserNotFound := "user not found"
  const PropertyNotFound := "property not found"
  const RecipientNotFound := "recipient user not found"
  const AlreadyFavorite := "property already in favorites"
  const NotFavorite := "property not in favorites"

  // ---------------------------------------------------------------------------
  // Signup and lookup by email

  /** Signup is the only way users enter the collection, so no two share an email. */
  predicate EmailsUnique(users: map<Id, User>) {
    forall a, b :: a in users && b in users && users[a].email == users[b].email ==> a == b
  }

  predicate HasEmail(users: map<Id, User>, email: string) {
    exists id :: id in users && users[id].email == email
  }

  /** The user FindOne({email}) returns. */
  function UserWithEmail(users: map<Id, User>, email: string): (id: Id)
    requires EmailsUnique(users) && HasEmail(users, email)
    ensures id in users && users[id].email == email
  {
    var id :| id in users && users[id].email == email; id
  }

  /**
   * FirstOrCreateUser: store call 0 is the FindOne by email and call 1 the InsertOne, which
   * fails on a duplicate `_id`. An existing email returns its user's id and writes nothing.
   */
  function FirstOrCreateUser(db: Db, name: string, email: string, password: string, now: Time, freshId: Id, f: set<nat>): (r: Reply<Db, Id>)
    requires EmailsUnique(db.users)
    ensures r.state.props == db.props
    ensures r.result.Err? ==> r.state == db
    ensures EmailsUnique(r.state.users)
    ensures HasEmail(db.users, email) && 0 !in f ==>
      r == Reply(db, Ok(UserWithEmail(db.users, email)))
    ensures !HasEmail(db.users, email) && 0 !in f && 1 !in f && freshId !in db.users ==>
      && r.result == Ok(freshId)
      && r.state.users == db.users[freshId := User(name, email, password, now, {}, [])]
      && |r.state.users| == |db.users| + 1
    ensures r.result.Ok? ==> r.result.value in r.state.users && r.state.users[r.result.value].email == email
    ensures 0 in f ==> r == Reply(db, Err(StoreError))
    ensures !HasEmail(db.users, email) && 0 !in f && 1 in f ==> r == Reply(db, Err(StoreError))
    ensures !HasEmail(db.users, email) && 0 !in f && 1 !in f && freshId in db.users ==> r == Reply(db, Err(DuplicateKey))
  {
    if 0 in f then Reply(db, Err(StoreError))
    else if HasEmail(db.users, email) then Reply(db, Ok(UserWithEmail(db.users, email)))
    else if 1 in f then Reply(db, Err(StoreError))
    else if freshId in db.users then Reply(db, Err(DuplicateKey))
    else Reply(db.(users := db.users[freshId := User(name, email, password, now, {}, [])]), Ok(freshId))
  }

  /** Signing up twice with one email gives one user and the same id both times. */
  lemma SignupTwice(db: Db, name: string, email: string, password: string, name2: string, password2: string, now: Time, now2: Time, id1: Id, id2: Id)
    requires EmailsUnique(db.users)
    requires FirstOrCreateUser(db, name, email, password, now, id1, {}).result.Ok?
    ensures var first := FirstOrCreateUser(db, name, email, password, now, id1, {});
      FirstOrCreateUser(first.state, name2, email, password2, now2, id2, {}) == Reply(first.state, first.result)
  {
  }

  /** GetPasswordByMail: store call 0 is the FindOne by email. */
  function GetPasswordByMail(db: Db, email: string, f: set<nat>): (r: Result<(string, Id)>)
    requires EmailsUnique(db.users)
    ensures r.Ok? ==> (r.value.1 in db.users && db.users[r.value.1].email == email
                       && db.users[r.value.1].password == r.value.0)
    ensures 0 !in f ==> (r.Ok? <==> HasEmail(db.users, email))
    ensures 0 !in f && !HasEmail(db.users, email) ==> r == Err(UserNotFound)
    ensures 0 in f ==> r == Err(StoreError)
  {
    if 0 in f then Err(StoreError)
    else if !HasEmail(db.users, email) then Err(UserNotFound)
    else
      var id := UserWithEmail(db.users, email);
      Ok((db.users[id].password, id))
  }

  /** GetUserByID: the id check, then store call 0, the FindOne. */
  function GetUserById(db: Db, userId: string, f: set<nat>): (r: Result<User>)
    ensures !ValidHex(userId) ==> r == Err(InvalidUserId)
    ensures ValidHex(userId) && 0 !in f ==>
      var uid := ParseObjectId(userId).value;
      r == (if uid in db.users then Ok(db.users[uid]) else Err(UserNotFound))
    ensures ValidHex(userId) && 0 in f ==> r == Err(StoreError)
  {
    match ParseObjectId(userId)
    case None => Err(InvalidUserId)
    case Some(uid) =>
      if 0 in f then Err(StoreError)
      else if uid !in db.users then Err(UserNotFound)
      else Ok(db.users[uid])
  }

  // ---------------------------------------------------------------------------
  // Favorites

  /** `users` with one user's favorites replaced. */
  function WithFavorites(users: map<Id, User>, uid: Id, favs: set<Id>): map<Id, User>
    requires uid in users
  {
    users[uid := users[uid].(favorites := favs)]
  }

  /** Everyone but `uid` is untouched, and nobody joins or leaves. */
  predicate OthersUnchanged(before: map<Id, User>, after: map<Id, User>, uid: Id) {
    && after.Keys == before.Keys
    && forall v :: v in before && v != uid ==> after[v] == before[v]
  }

  /**
   * AddToFavorites: both id checks, then store call 0, a FindOne of the user holding the
   * property, and store call 1, the `$addToSet` UpdateOne. A missing user matches nothing and
   * is not an error.
   */
  function AddToFavorites(db: Db, userId: string, propertyId: string, f: set<nat>): (r: Reply<Db, ()>)
    ensures r.state.props == db.props
    ensures r.result.Err? ==> r.state == db
    ensures !ValidHex(userId) ==> r.result == Err(InvalidUserId)
    ensures ValidHex(userId) && !ValidHex(propertyId) ==> r.result == Err(InvalidPropertyId)
    ensures r.result.Ok? ==>
      var uid := ParseObjectId(userId).value;
      var pid := ParseObjectId(propertyId).value;
      && ValidHex(userId) && ValidHex(propertyId)
      && OthersUnchanged(db.users, r.state.users, uid)
      && (uid in db.users ==> r.state.users[uid] == db.users[uid].(favorites := db.users[uid].favorites + {pid}))
    ensures ValidHex(userId) && ValidHex(propertyId) ==>
      var uid := ParseObjectId(userId).value;
      var pid := ParseObjectId(propertyId).value;
      var held := uid in db.users && pid in db.users[uid].favorites;
      && (0 in f ==> r == Reply(db, Err(StoreError)))
      && (0 !in f && held ==> r == Reply(db, Ok(())))
      && (0 !in f && !held && 1 in f ==> r == Reply(db, Err(StoreError)))
      && (0 !in f && !held && 1 !in f ==> r.result.Ok?)
  {
    match (ParseObjectId(userId), ParseObjectId(propertyId))
    case (None, _) => Reply(db, Err(InvalidUserId))
    case (_, None) => Reply(db, Err(InvalidPropertyId))
    case (Some(uid), Some(pid)) =>
      if 0 in f then Reply(db, Err(StoreError))
      else if uid in db.users && pid in db.users[uid].favorites then Reply(db, Ok(()))
      else if 1 in f then Reply(db, Err(StoreError))
      else if uid !in db.users then Reply(db, Ok(()))
      else Reply(db.(users := WithFavorites(db.users, uid, db.users[uid].favorites + {pid})), Ok(()))
  }

  /** Adding the same favorite twice leaves the store as adding it once. */
  lemma AddToFavoritesIdempotent(db: Db, userId: string, propertyId: string)
    requires ValidHex(userId) && ValidHex(propertyId)
    ensures var once := AddToFavorites(db, userId, propertyId, {});
      AddToFavorites(once.state, userId, propertyId, {}) == once
  {
    var uid := ParseObjectId(userId).value;
    var once := AddToFavorites(db, userId, propertyId, {});
    if uid in db.users {
      assert once.state.users[uid].favorites == db.users[uid].favorites + {ParseObjectId(propertyId).value};
    }
  }

  /**
   * RemoveFromFavorites: both id checks, then store call 0, the `$pull` UpdateOne; a user
   * that does not hold the property, or does not exist, is not an error.
   */
  function RemoveFromFavorites(db: Db, userId: string, propertyId: string, f: set<nat>): (r: Reply<Db, ()>)
    ensures r.state.props == db.props
    ensures r.result.Err? ==> r.state == db
    ensures !ValidHex(userId) ==> r.result == Err(InvalidUserId)
    ensures ValidHex(userId) && !ValidHex(propertyId) ==> r.result == Err(InvalidPropertyId)
    ensures r.result.Ok? ==>
      var uid := ParseObjectId(userId).value;
      && OthersUnchanged(db.users, r.state.users, uid)
      && (uid in db.users ==> r.state.users[uid] == db.users[uid].(favorites := db.users[uid].favorites - {ParseObjectId(propertyId).value}))
    ensures ValidHex(userId) && ValidHex(propertyId) ==>
      && (r.result.Ok? <==> 0 !in f)
      && (0 in f ==> r == Reply(db, Err(StoreError)))
  {
    match (ParseObjectId(userId), ParseObjectId(propertyId))
    case (None, _) => Reply(db, Err(InvalidUserId))
    case (_, None) => Reply(db, Err(InvalidPropertyId))
    case (Some(uid), Some(pid)) =>
      if 0 in f then Reply(db, Err(StoreError))
      else if uid !in db.users then Reply(db, Ok(()))
      else Reply(db.(users := WithFavorites(db.users, uid, db.users[uid].favorites - {pid})), Ok(()))
  }

  /** Removing undoes adding: a favorite the user did not hold, added and then removed, leaves the store as it was. */
  lemma AddThenRemoveFavorites(db: Db, userId: string, propertyId: string)
    requires ValidHex(userId) && ValidHex(propertyId)
    requires var uid := ParseObjectId(userId).value;
      uid in db.users ==> ParseObjectId(propertyId).value !in db.users[uid].favorites
    ensures RemoveFromFavorites(AddToFavorites(db, userId, propertyId, {}).state, userId, propertyId, {}) == Reply(db, Ok(()))
  {
    var uid := ParseObjectId(userId).value;
    var pid := ParseObjectId(propertyId).value;
    if uid in db.users {
      var favs := db.users[uid].favorites;
      assert (favs + {pid}) - {pid} == favs;
      var added := AddToFavorites(db, userId, propertyId, {}).state;
      assert added.users == WithFavorites(db.users, uid, favs + {pid});
      assert WithFavorites(added.users, uid, favs) == db.users;
    }
  }

  /**
   * AddFavoriteProperty: the user id, the property id, then store call 0 counting the
   * property; then call 1, the `$addToSet` UpdateOne; when it modifies nothing, call 2 counts
   * the user to tell a missing user from a property already held.
   */
  function AddFavoriteProperty(db: Db, userId: string, propertyId: string, f: set<nat>): (r: Reply<Db, ()>)
    ensures r.state.props == db.props
    ensures r.result.Err? ==> r.state == db
    ensures !ValidHex(userId) ==> r.result == Err(InvalidUserId)
    ensures ValidHex(userId) && !ValidHex(propertyId) ==> r.result == Err(InvalidPropertyId)
    ensures ValidHex(userId) && ValidHex(propertyId) && 0 in f ==> r == Reply(db, Err(StoreError))
    ensures ValidHex(userId) && ValidHex(propertyId) && 0 !in f ==>
      var uid := ParseObjectId(userId).value;
      var pid := ParseObjectId(propertyId).value;
      var addable := uid in db.users && pid !in db.users[uid].favorites;
      && (pid !in db.props ==> r.result == Err(PropertyNotFound))
      && (pid in db.props && 1 in f ==> r == Reply(db, Err(StoreError)))
      && (pid in db.props && 1 !in f ==>
           && (addable ==> r.result.Ok?)
           && (!addable && 2 in f ==> r == Reply(db, Err(StoreError)))
           && (2 !in f && uid !in db.users ==> r.result == Err(UserNotFound))
           && (2 !in f && uid in db.users && pid in db.users[uid].favorites ==> r.result == Err(AlreadyFavorite)))
    ensures r.result.Ok? ==>
      var uid := ParseObjectId(userId).value;
      var pid := ParseObjectId(propertyId).value;
      && 0 !in f && 1 !in f
      && pid in db.props && uid in db.users && pid !in db.users[uid].favorites
      && OthersUnchanged(db.users, r.state.users, uid)
      && r.state.users[uid] == db.users[uid].(favorites := db.users[uid].favorites + {pid})
  {
    match (ParseObjectId(userId), ParseObjectId(propertyId))
    case (None, _) => Reply(db, Err(InvalidUserId))
    case (_, None) => Reply(db, Err(InvalidPropertyId))
    case (Some(uid), Some(pid)) =>
      if 0 in f then Reply(db, Err(StoreError))
      else if pid !in db.props then Reply(db, Err(PropertyNotFound))
      else if 1 in f then Reply(db, Err(StoreError))
      else if uid in db.users && pid !in db.users[uid].favorites then
        Reply(db.(users := WithFavorites(db.users, uid, db.users[uid].favorites + {pid})), Ok(()))
      else if 2 in f then Reply(db, Err(StoreError))
      else if uid !in db.users then Reply(db, Err(UserNotFound))
      else Reply(db, Err(AlreadyFavorite))
  }

  /**
   * RemoveFavoriteProperty: the user id, the property id, then store call 0, the `$pull`
   * UpdateOne; when it modifies nothing, call 1 counts the user. The property itself is never
   * looked up.
   */
  function RemoveFavoriteProperty(db: Db, userId: string, propertyId: string, f: set<nat>): (r: Reply<Db, ()>)
    ensures r.state.props == db.props
    ensures r.result.Err? ==> r.state == db
    ensures !ValidHex(userId) ==> r.result == Err(InvalidUserId)
    ensures ValidHex(userId) && !ValidHex(propertyId) ==> r.result == Err(InvalidPropertyId)
    ensures ValidHex(userId) && ValidHex(propertyId) && 0 in f ==> r == Reply(db, Err(StoreError))
    ensures ValidHex(userId) && ValidHex(propertyId) && 0 !in f ==>
      var uid := ParseObjectId(userId).value;
      var pid := ParseObjectId(propertyId).value;
      var held := uid in db.users && pid in db.users[uid].favorites;
      && (held ==> r.result.Ok?)
      && (!held && 1 in f ==> r == Reply(db, Err(StoreError)))
      && (1 !in f && uid !in db.users ==> r.result == Err(UserNotFound))
      && (1 !in f && uid in db.users && pid !in db.users[uid].favorites ==> r.result == Err(NotFavorite))
    ensures r.result.Ok? ==>
      var uid := ParseObjectId(userId).value;
      var pid := ParseObjectId(propertyId).value;
      && 0 !in f
      && uid in db.users && pid in db.users[uid].favorites
      && OthersUnchanged(db.users, r.state.users, uid)
      && r.state.users[uid] == db.users[uid].(favorites := db.users[uid].favorites - {pid})
  {
    match (ParseObjectId(userId), ParseObjectId(propertyId))
    case (None, _) => Reply(db, Err(InvalidUserId))
    case (_, None) => Reply(db, Err(InvalidPropertyId))
    case (Some(uid), Some(pid)) =>
      if 0 in f then Reply(db, Err(StoreError))
      else if uid in db.users && pid in db.users[uid].favorites then
        Reply(db.(users := WithFavorites(db.users, uid, db.users[uid].favorites - {pid})), Ok(()))
      else if 1 in f then Reply(db, Err(StoreError))
      else if uid !in db.users then Reply(db, Err(UserNotFound))
      else Reply(db, Err(NotFavorite))
  }

  /** Removing a favorite gives the same reply whatever the properties collection holds. */
  lemma RemoveIgnoresProperties(db: Db, props': map<Id, Property>, userId: string, propertyId: string, f: set<nat>)
    ensures RemoveFavoriteProperty(db.(props := props'), userId, propertyId, f).result
         == RemoveFavoriteProperty(db, userId, propertyId, f).result
  {
  }

  /** The stored properties a set of favorite ids still names. */
  function FavoriteProperties(props: map<Id, Property>, favs: set<Id>): set<Property> {
    set id | id in favs && id in props :: props[id]
  }

  /**
   * GetUserFavorites: the id check, store call 0 (the user) and, only when the user has
   * favorites, store call 1 (the properties with those ids).
   */
  function GetUserFavorites(db: Db, userId: string, f: set<nat>): (r: Result<set<Property>>)
    ensures !ValidHex(userId) ==> r == Err(InvalidUserId)
    ensures ValidHex(userId) && 0 !in f && ParseObjectId(userId).value !in db.users ==> r == Err(NoDocuments)
    ensures (&& ValidHex(userId) && 0 !in f && ParseObjectId(userId).value in db.users
             && db.users[ParseObjectId(userId).value].favorites == {}) ==> r == Ok({})
    ensures r.Ok? ==> ValidHex(userId) && ParseObjectId(userId).value in db.users
    ensures ValidHex(userId) && 0 in f ==> r == Err(StoreError)
    ensures ValidHex(userId) && 0 !in f && ParseObjectId(userId).value in db.users ==>
      var favs := db.users[ParseObjectId(userId).value].favorites;
      && (r.Ok? <==> favs == {} || 1 !in f)
      && (favs != {} && 1 in f ==> r == Err(StoreError))
    ensures r.Ok? && PropertiesWellFormed(db.props) ==>
      var favs := db.users[ParseObjectId(userId).value].favorites;
      forall p :: p in r.value <==> p.id in favs && p.id in db.props && db.props[p.id] == p
  {
    match ParseObjectId(userId)
    case None => Err(InvalidUserId)
    case Some(uid) =>
      if 0 in f then Err(StoreError)
      else if uid !in db.users then Err(NoDocuments)
      else if db.users[uid].favorites == {} then Ok({})
      else if 1 in f then Err(StoreError)
      else Ok(FavoriteProperties(db.props, db.users[uid].favorites))
  }

  /** After a successful add, the user's favorites list shows the property; after a remove, it does not. */
  lemma FavoritesAfterAddAndRemove(db: Db, userId: string, propertyId: string)
    requires PropertiesWellFormed(db.props)
    ensures var a := AddFavoriteProperty(db, userId, propertyId, {});
      a.result.Ok? ==> var pid := ParseObjectId(propertyId).value;
        GetUserFavorites(a.state, userId, {}) .Ok? && db.props[pid] in GetUserFavorites(a.state, userId, {}).value
    ensures var d := RemoveFavoriteProperty(db, userId, propertyId, {});
      d.result.Ok? ==> var pid := ParseObjectId(propertyId).value;
        forall p :: p in GetUserFavorites(d.state, userId, {}).value ==> p.id != pid
  {
  }

  // ---------------------------------------------------------------------------
  // Recommendations

  /**
   * RecommendProperty: the three id checks, then store call 0 counting the property and call
   * 1 counting the recipient; call 2 pushes the recommendation. The recommender is never
   * looked up.
   */
  function RecommendProperty(db: Db, fromUserId: string, toUserId: string, propertyId: string, now: Time, f: set<nat>): (r: Reply<Db, ()>)
    ensures r.state.props == db.props
    ensures r.result.Err? ==> r.state == db
    ensures !ValidHex(fromUserId) ==> r.result == Err(InvalidRecommenderId)
    ensures ValidHex(fromUserId) && !ValidHex(toUserId) ==> r.result == Err(InvalidRecipientId)
    ensures ValidHex(fromUserId) && ValidHex(toUserId) && !ValidHex(propertyId) ==> r.result == Err(InvalidPropertyId)
    ensures ValidHex(fromUserId) && ValidHex(toUserId) && ValidHex(propertyId) && 0 !in f ==>
      var to := ParseObjectId(toUserId).value;
      var pid := ParseObjectId(propertyId).value;
      && (pid !in db.props ==> r.result == Err(PropertyNotFound))
      && (pid in db.props && 1 in f ==> r == Reply(db, Err(StoreError)))
      && (pid in db.props && 1 !in f && to !in db.users ==> r.result == Err(RecipientNotFound))
      && (pid in db.props && 1 !in f && to in db.users && 2 in f ==> r == Reply(db, Err(StoreError)))
      && (pid in db.props && 1 !in f && to in db.users && 2 !in f ==> r.result.Ok?)
    ensures ValidHex(fromUserId) && ValidHex(toUserId) && ValidHex(propertyId) && 0 in f ==>
      r == Reply(db, Err(StoreError))
    ensures r.result.Ok? ==>
      var to := ParseObjectId(toUserId).value;
      var rec := Recommendation(ParseObjectId(propertyId).value, ParseObjectId(fromUserId).value, now);
      && 0 !in f && 1 !in f && 2 !in f
      && ParseObjectId(propertyId).value in db.props
      && to in db.users
      && OthersUnchanged(db.users, r.state.users, to)
      && r.state.users[to] == db.users[to].(received := db.users[to].received + [rec])
  {
    match (ParseObjectId(fromUserId), ParseObjectId(toUserId), ParseObjectId(propertyId))
    case (None, _, _) => Reply(db, Err(InvalidRecommenderId))
    case (_, None, _) => Reply(db, Err(InvalidRecipientId))
    case (_, _, None) => Reply(db, Err(InvalidPropertyId))
    case (Some(from), Some(to), Some(pid)) =>
      if 0 in f then Reply(db, Err(StoreError))
      else if pid !in db.props then Reply(db, Err(PropertyNotFound))
      else if 1 in f then Reply(db, Err(StoreError))
      else if to !in db.users then Reply(db, Err(RecipientNotFound))
      else if 2 in f then Reply(db, Err(StoreError))
      else
        var u := db.users[to];
        Reply(db.(users := db.users[to := u.(received := u.received + [Recommendation(pid, from, now)])]), Ok(()))
  }

  /** One entry of the received-recommendations listing. */
  datatype Detail = Detail(property: Property, recommenderId: Id, recommenderName: string, recommenderEmail: string, recommendedAt: Time)

  /** A recommendation is listed when both its property and its recommender still exist. */
  predicate Resolves(rec: Recommendation, props: map<Id, Property>, users: map<Id, User>) {
    rec.propertyId in props && rec.recommendedBy in users
  }

  function DetailOf(rec: Recommendation, props: map<Id, Property>, users: map<Id, User>): Detail
    requires Resolves(rec, props, users)
  {
    var sender := users[rec.recommendedBy];
    Detail(props[rec.propertyId], rec.recommendedBy, sender.name, sender.email, rec.recommendedAt)
  }

  /** The listing loop of GetReceivedRecommendations: the resolvable entries, in stored order. */
  function Join(recs: seq<Recommendation>, props: map<Id, Property>, users: map<Id, User>): (r: seq<Detail>)
    ensures |r| <= |recs|
  {
    if |recs| == 0 then []
    else
      (if Resolves(recs[0], props, users) then [DetailOf(recs[0], props, users)] else [])
      + Join(recs[1..], props, users)
  }

  /** Joining is an order-preserving filter: it distributes over concatenation. */
  lemma {:induction false} JoinAppend(a: seq<Recommendation>, b: seq<Recommendation>, props: map<Id, Property>, users: map<Id, User>)
    ensures Join(a + b, props, users) == Join(a, props, users) + Join(b, props, users)
  {
    if |a| == 0 {
      assert a + b == b;
    } else {
      assert (a + b)[0] == a[0];
      assert (a + b)[1..] == a[1..] + b;
      JoinAppend(a[1..], b, props, users);
    }
  }

  /** Every listed entry comes from a stored recommendation that resolves, and every resolving one is listed. */
  lemma {:induction false} JoinMembership(recs: seq<Recommendation>, props: map<Id, Property>, users: map<Id, User>, d: Detail)
    ensures d in Join(recs, props, users) <==>
      exists i :: 0 <= i < |recs| && Resolves(recs[i], props, users) && DetailOf(recs[i], props, users) == d
  {
    if |recs| > 0 {
      JoinMembership(recs[1..], props, users, d);
      if exists i :: 0 <= i < |recs| && Resolves(recs[i], props, users) && DetailOf(recs[i], props, users) == d {
        var i :| 0 <= i < |recs| && Resolves(recs[i], props, users) && DetailOf(recs[i], props, users) == d;
        if i > 0 { assert recs[1..][i - 1] == recs[i]; }
      }
      if d in Join(recs[1..], props, users) {
        var i :| 0 <= i < |recs[1..]| && Resolves(recs[1..][i], props, users) && DetailOf(recs[1..][i], props, users) == d;
        assert recs[i + 1] == recs[1..][i];
      }
    }
  }

  /** Changing anything of the users but names and emails does not change a listing. */
  lemma {:induction false} JoinFrame(recs: seq<Recommendation>, props: map<Id, Property>, users: map<Id, User>, users': map<Id, User>)
    requires users'.Keys == users.Keys
    requires forall v :: v in users ==> users'[v].name == users[v].name && users'[v].email == users[v].email
    ensures Join(recs, props, users') == Join(recs, props, users)
  {
    if |recs| > 0 {
      JoinFrame(recs[1..], props, users, users');
    }
  }

  /**
   * GetReceivedRecommendations: the id check, store call 0 (the user) and, only when the list
   * is not empty, calls 1 and 2 (its properties and its recommenders).
   */
  function GetReceivedRecommendations(db: Db, userId: string, f: set<nat>): (r: Result<seq<Detail>>)
    ensures !ValidHex(userId) ==> r == Err(InvalidUserId)
    ensures ValidHex(userId) && 0 !in f && ParseObjectId(userId).value !in db.users ==> r == Err(NoDocuments)
    ensures (&& ValidHex(userId) && 0 !in f && ParseObjectId(userId).value in db.users
             && db.users[ParseObjectId(userId).value].received == []) ==> r == Ok([])
    ensures r.Ok? ==> ValidHex(userId) && ParseObjectId(userId).value in db.users
    ensures r.Ok? ==> |r.value| <= |db.users[ParseObjectId(userId).value].received|
    ensures ValidHex(userId) && 0 in f ==> r == Err(StoreError)
    ensures ValidHex(userId) && 0 !in f && ParseObjectId(userId).value in db.users ==>
      var received := db.users[ParseObjectId(userId).value].received;
      && (received != [] && (1 in f || 2 in f) ==> r == Err(StoreError))
      && (received == [] || (1 !in f && 2 !in f) ==> r == Ok(Join(received, db.props, db.users)))
  {
    match ParseObjectId(userId)
    case None => Err(InvalidUserId)
    case Some(uid) =>
      if 0 in f then Err(StoreError)
      else if uid !in db.users then Err(NoDocuments)
      else if db.users[uid].received == [] then Ok([])
      else if 1 in f || 2 in f then Err(StoreError)
      else Ok(Join(db.users[uid].received, db.props, db.users))
  }

  /**
   * A successful recommendation appears at the end of the recipient's listing when the
   * recommender exists, and is invisible otherwise; earlier entries are listed as before.
   */
  lemma RecommendThenList(db: Db, fromUserId: string, toUserId: string, propertyId: string, now: Time)
    requires RecommendProperty(db, fromUserId, toUserId, propertyId, now, {}).result.Ok?
    ensures
      var after := RecommendProperty(db, fromUserId, toUserId, propertyId, now, {}).state;
      var to := ParseObjectId(toUserId).value;
      var rec := Recommendation(ParseObjectId(propertyId).value, ParseObjectId(fromUserId).value, now);
      var before := Join(db.users[to].received, db.props, db.users);
      GetReceivedRecommendations(after, toUserId, {})
        == Ok(if rec.recommendedBy in db.users then before + [DetailOf(rec, db.props, db.users)] else before)
  {
    var after := RecommendProperty(db, fromUserId, toUserId, propertyId, now, {}).state;
    var to := ParseObjectId(toUserId).value;
    var rec := Recommendation(ParseObjectId(propertyId).value, ParseObjectId(fromUserId).value, now);
    var recs := db.users[to].received;
    assert after.users[to].received == recs + [rec];
    assert after.users[to].received != [];
    JoinAppend(recs, [rec], db.props, after.users);
    JoinFrame(recs, db.props, db.users, after.users);
    JoinFrame([rec], db.props, db.users, after.users);
    assert [rec][1..] == [];
    var single := if rec.recommendedBy in db.users then [DetailOf(rec, db.props, db.users)] else [];
    assert Join([rec], db.props, db.users) == single;
    var whole := Join(after.users[to].received, db.props, after.users);
    assert whole == Join(recs, db.props, db.users) + single;
    assert GetReceivedRecommendations(after, toUserId, {}) == Ok(whole);
    var before := Join(db.users[to].received, db.props, db.users);
    if rec.recommendedBy in db.users {
      assert whole == before + [DetailOf(rec, db.props, db.users)];
    } else {
      assert whole == before + [];
      assert whole == before;
    }
  }
}

=== FILE: wrappers.dfy ===
/** Failure-carrying values shared by every module of the model. */
module Wrappers {

  /** A value that may be missing, as Go's `(v, ok)` and `(v, err)` pairs are used here. */
  datatype Option<+T> = None | Some(value: T) {
    function GetOr(default: T): T {
      match this
      case Some(v) => v
      case None => default
    }
  }

  /** The outcome of a call that can fail with a Go `error`; the message is the error's text. */
  datatype Result<+T> = Ok(value: T) | Err(error: string)
}
